=== FILE: README.md ===
# opencv-sync in Dafny

A model of the camera-calibration scripts of `opencv-sync`. The scripts are a
FaceCam/ZED stereo rig's capture, calibration and cross-camera matching
tools. The model covers:

- **Capture loops.** These are `capture_stereo_pairs.py`, `calibration/capture_pairs.py`,
  `capture_facecam_simple.py`, `capture_zed_simple.py`,
  `capture_zed_try_direct.py` and `capture_zed_obs_direct.py`. Each one opens
  its devices (with retries or backend and resolution negotiation where the
  script has them), then loops: read a frame, detect ArUco markers, save the
  grayscale image on S when at least 4 markers show, stop on q/Q or on a read
  failure.
- **Intrinsic calibration.** `calibration/calibrate_cameras_clean.py` and
  `calibrate_simple.py` gather ChArUco views file by file, keep the accepted
  ones, and hand them to the solver.
- **Cross-camera matching.** `match_facecam_to_zed_simple.py` pairs
  `pair0_NNN.png` with `pair1_NNN.png`, intersects the ChArUco ids and gathers
  corresponding points. It then fits and saves the homography.
- **Rectification comparison.** `compare_rectification_options.py` loads
  an optional transform and dual maps, then picks warp, remap or pass-through
  per key press, and saves labelled comparison pairs.

Every OpenCV and NumPy call is a function-typed parameter of the model:
`imread`, `detectBoard`/`detectMarkers`, `cvtColor`, `cornerSubPix`,
`calibrateCamera`, `findHomography`, `warpPerspective`, `remap`, `np.load`,
`VideoCapture` opening and `cap.get` of the negotiated sizes. Each call's
possible exception is a case of a datatype (`Solve.SolverRaised`,
`Fit.FitRaised`, `Outcome.Crashed`). The frames read and the keys pressed in
each pass of a `while True` loop are a finite input sequence of ticks. Each
loop is specified by a left fold (`...Run`) over that sequence, and the
imperative loop method is proved equal to the fold.

The names of saved files are modelled exactly: `scans/cal_zed_007.png`,
`scans/pair0_012.png`, `scans/comparison_zed_2_003.png`, `K_facecam.npy`.
Python's `f"{n:03d}"` is `Common.Pad3`. Its round trip through decimal parsing
is proved, and so is the consequence that no loop ever writes two images under
one name.

Notes on the code's behaviour, which the model follows:

- `calibrate_simple.py` takes the image size for calibration from the first
  file in the list (`image_files[0]`, lines 76-77), not from the first image
  that was read successfully. See Findings.
- `capture_zed_simple.py` and `capture_facecam_simple.py` stop on the
  eleventh failed read (`failed_reads > max_failed_reads` with a limit of
  10), not the tenth.
- In `capture_zed_simple.py` the counter is never reset by a good read.
  In `capture_facecam_simple.py` it is reset, so only consecutive failures
  count there.

## Model

| member | source | states |
|---|---|---|
| Common.EnoughMarkers | opencv-sync/capture_zed_simple.py:93 | the save gate holds exactly when the detector returned ids and there are at least 4 of them; no ids never passes |
| Common.HandleKeySaves | opencv-sync/capture_zed_simple.py:92-103 | one key press: S/s saves the grayscale image as the next numbered file and increments the count exactly when at least 4 markers show, otherwise nothing changes; q/Q (and not S) stops the loop; the failure counter is untouched |
| Common.Decimal | opencv-sync/compare_rectification_options.py:110-111 | `str(n)` is a non-empty string of digits, one digit below 10, at most three below 1000 |
| Common.Pad3 | opencv-sync/capture_zed_simple.py:94 | `f"{n:03d}"` is all digits, at least three long and exactly three below 1000 |
| Common.ParseDecimalOfDecimal | opencv-sync/compare_rectification_options.py:110-111 | reading the decimal digits of `str(n)` gives back `n` |
| Common.Pad3RoundTrip | opencv-sync/capture_zed_simple.py:94 | reading the zero-padded counter back gives the counter: the leading zeros carry no value |
| Common.Pad3Injective | opencv-sync/capture_zed_simple.py:94 | two different counters never pad to the same text |
| Common.IndexedNameInjective | opencv-sync/capture_zed_simple.py:94-95 | file names that differ only in the padded counter are equal only for equal counters |
| PathNames.Basename | opencv-sync/match_facecam_to_zed_simple.py:36 | `os.path.basename` returns the suffix of the path after its last `/`, containing no `/` |
| PathNames.BasenameFollowsSlash | opencv-sync/match_facecam_to_zed_simple.py:36 | whatever `os.path.basename` cuts off ends in `/`, so the basename starts right after the last separator |
| PathNames.BasenameAfterSlash | opencv-sync/match_facecam_to_zed_simple.py:36 | the basename of `dir/name` is `name` when `name` has no `/` |
| PathNames.ReplaceLeading | opencv-sync/match_facecam_to_zed_simple.py:37 | `str.replace` on text that starts with the pattern replaces that occurrence and carries on after it |
| PathNames.ReplaceSkipsPrefix | opencv-sync/match_facecam_to_zed_simple.py:37 | `str.replace` leaves a prefix that cannot start the pattern unchanged |
| Frames.LeftHalf | opencv-sync/capture_zed_simple.py:57-58 | `frame[:, :w//2]` keeps every row and the first `w // 2` pixels of each, unchanged |
| Resolution.Reports | opencv-sync/capture_zed_try_direct.py:82-88 | the device reports one size per requested target, in request order |
| Charuco.Ids | opencv-sync/calibration/calibrate_cameras_clean.py:65 | `charuco_ids.ravel()` lists the id of each detected corner in detection order |
| Charuco.Kept | opencv-sync/calibration/calibrate_cameras_clean.py:65-66 | the corners kept are exactly the detected corners whose id indexes the board |
| Charuco.KeptIndices | opencv-sync/calibration/calibrate_cameras_clean.py:65-66 | the positions that pass `corner_id < len(board_points)` are listed ascending, each once, and every passing position is listed |
| Charuco.KeptInOrder | opencv-sync/calibration/calibrate_cameras_clean.py:65-66 | the kept corners are the detection at exactly those positions, in detection order and without repeats |
| Charuco.ViewOfKept | opencv-sync/calibration/calibrate_cameras_clean.py:62-72 | object and image point lists have one entry per kept corner: the first corner of that marker on the board and the detected point |
| Charuco.CollectView | opencv-sync/calibration/calibrate_cameras_clean.py:62-72 | the filtering loop appends exactly the view above and keeps both lists the same length |
| SaveLoop.StoppedRunIsFinal | opencv-sync/capture_zed_try_direct.py:118-171 | after a `break` no later pass changes anything |
| SaveLoop.FirstFailedReadEnds | opencv-sync/capture_zed_try_direct.py:119-122 | the first failed read ends the loop and keeps everything saved before it |
| SaveLoop.RunningMeansAllRead | opencv-sync/capture_zed_try_direct.py:119-122 | a loop still running has had no failed read and no q/Q press |
| SaveLoop.SavedImagesNumbered | opencv-sync/capture_zed_try_direct.py:160-168 | `saved_count` counts the saved images, which are named `scans/<stem>000.png`, `001`, ... in order; each showed at least 4 markers and is the grayscale image of a frame that was read |
| SaveLoop.RunSaveLoop | opencv-sync/capture_zed_obs_direct.py:82-131 | the `while True` loop shared by both direct-capture scripts computes exactly the fold over its passes |
| CaptureZedTryDirect.FirstSuccess | opencv-sync/capture_zed_try_direct.py:23-54 | the attempt chosen is the first in list order that opens and delivers a frame; none earlier did; if none is chosen, no attempt did |
| CaptureZedTryDirect.SelectAttempt | opencv-sync/capture_zed_try_direct.py:35-54 | for any attempt list (the script's is `Attempts`), attempts are tried in order up to and including the chosen one, and every attempt tried before it is released |
| CaptureZedTryDirect.NegotiationNeverShrinks | opencv-sync/capture_zed_try_direct.py:82-95 | `best_resolution` never decreases in either dimension as more targets are tried |
| CaptureZedTryDirect.BestIsUnbeaten | opencv-sync/capture_zed_try_direct.py:79-95 | the best size is the first frame's size or one the device reported; it is at least the start, and no reported size beats it in both dimensions |
| CaptureZedTryDirect.NegotiateResolution | opencv-sync/capture_zed_try_direct.py:79-99 | as written: all four targets are requested, `best_resolution` is the fold of upgrades, and the final size is what the device gives for the last target (800x600) |
| CaptureZedTryDirect.BestResolutionNotApplied | opencv-sync/capture_zed_try_direct.py:82-99 | a device that honours every request and starts at 1280x720 finds 1920x1080 as best but ends at 800x600, smaller than it started |
| CaptureZedTryDirect.NegotiateAndApply | opencv-sync/capture_zed_try_direct.py:79-99 | corrected negotiation: after the four targets the winning size is requested once more (the target that produced it, or the start when none beat it); the device ends at the best size whenever a target beat the start, and, for a device that delivers the start again when asked, never below the start |
| CaptureZedTryDirect.CaptureZedTryDirect | opencv-sync/capture_zed_try_direct.py:12-173 | no camera exactly when no attempt works; otherwise it uses the first working attempt, the as-written negotiation and the loop on the left half of each frame |
| CaptureZedObsDirect.FirstImprovement | opencv-sync/capture_zed_obs_direct.py:50-61 | the target adopted is the first whose reported size is strictly larger in both dimensions; none before it was |
| CaptureZedObsDirect.NegotiatedNeverShrinks | opencv-sync/capture_zed_obs_direct.py:44-63 | the negotiated size is at least the start; it changes exactly when some target beat the start in both dimensions, and then it is strictly larger |
| CaptureZedObsDirect.NegotiateResolution | opencv-sync/capture_zed_obs_direct.py:44-63 | the loop requests targets in order and stops at the first improvement, leaving the size at that improvement, or at the start if there is none |
| CaptureZedObsDirect.CaptureZedObsDirect | opencv-sync/capture_zed_obs_direct.py:29-131 | it returns before negotiating when the virtual camera does not open; otherwise it negotiates and runs the loop on whole frames |
| CaptureZedSimple.StoppedRunIsFinal | opencv-sync/capture_zed_simple.py:46-103 | after a `break` no later pass changes anything |
| CaptureZedSimple.Failures | opencv-sync/capture_zed_simple.py:47-54 | the number of failed reads is at most the number of passes, and zero exactly when every read succeeded |
| CaptureZedSimple.CounterCountsAllFailures | opencv-sync/capture_zed_simple.py:47-54 | while running, `failed_reads` counts every failed read so far (it is never reset) and is at most 10 |
| CaptureZedSimple.EleventhFailureStops | opencv-sync/capture_zed_simple.py:50-52 | more than 10 failed reads in total stop the loop |
| CaptureZedSimple.FailureStopNeedsElevenFailures | opencv-sync/capture_zed_simple.py:47-54 | the loop stops for failed reads only after more than 10 of them |
| CaptureZedSimple.ZedImagesNumbered | opencv-sync/capture_zed_simple.py:57-100 | saved images are `scans/cal_zed_000.png`, ... in order; each showed at least 4 markers and is the grayscale left half of a frame that was read |
| CaptureZedSimple.CaptureZedSimple | opencv-sync/capture_zed_simple.py:21-103 | not opened exactly when the device does not open; otherwise the loop's final state is the fold over its passes |
| CaptureFacecamSimple.OpenWithRetry | opencv-sync/capture_facecam_simple.py:21-45 | at most 3 attempts; the device is kept on the first attempt that opens and reads a frame, and every earlier attempt failed |
| CaptureFacecamSimple.StoppedRunIsFinal | opencv-sync/capture_facecam_simple.py:66-126 | after a `break` no later pass changes anything |
| CaptureFacecamSimple.TrailingFailures | opencv-sync/capture_facecam_simple.py:72-81 | the run of failed reads at the end of the input: all of them failed, and the pass before them read a frame |
| CaptureFacecamSimple.CounterCountsConsecutiveFailures | opencv-sync/capture_facecam_simple.py:72-81 | while running, `failed_reads` is the number of consecutive failures since the last good read, at most 10 |
| CaptureFacecamSimple.ElevenInARowStop | opencv-sync/capture_facecam_simple.py:72-79 | eleven failed reads in a row stop the loop |
| CaptureFacecamSimple.FailureStopNeedsElevenInARow | opencv-sync/capture_facecam_simple.py:72-81 | the loop stops for failed reads only after eleven consecutive failures |
| CaptureFacecamSimple.FacecamImagesNumbered | opencv-sync/capture_facecam_simple.py:115-123 | saved images are `scans/cal_facecam_hd_000.png`, ... in order, each with at least 4 markers |
| CaptureFacecamSimple.CaptureFacecamSimple | opencv-sync/capture_facecam_simple.py:12-128 | never opened exactly when all 3 attempts fail; otherwise the loop's final state is the fold over its passes |
| CaptureStereoPairs.StoppedRunIsFinal | opencv-sync/capture_stereo_pairs.py:60-139 | after a `break` no later pass changes anything |
| CaptureStereoPairs.SaveGate | opencv-sync/capture_stereo_pairs.py:123-136 | S saves a pair exactly when both cameras show at least 4 markers, as `pair0_NNN`/`pair1_NNN` under the same counter; otherwise nothing changes |
| CaptureStereoPairs.StereoPairsNumbered | opencv-sync/capture_stereo_pairs.py:123-132 | saved pairs are numbered from 000 in order, and both images of each showed at least 4 markers |
| CaptureStereoPairs.SavedPairsArePartners | opencv-sync/capture_stereo_pairs.py:126-127 | the matcher's partner name of each saved FaceCam file is exactly the ZED file saved with it |
| CaptureStereoPairs.CaptureStereoPairs | opencv-sync/capture_stereo_pairs.py:12-142 | it fails before the loop exactly when the FaceCam or the ZED does not open, releasing what was opened; otherwise the final state is the fold |
| CalibrationCapturePairs.FirstOpening | opencv-sync/calibration/capture_pairs.py:28-46 | the backend used is the first in list order that opens the device; none earlier did |
| CalibrationCapturePairs.SelectBackend | opencv-sync/calibration/capture_pairs.py:28-46 | the capture is open exactly when some backend opens, and then it is the first such backend |
| CalibrationCapturePairs.StoppedRunIsFinal | opencv-sync/calibration/capture_pairs.py:71-142 | after a `break` no later pass changes anything |
| CalibrationCapturePairs.PairStepEffects | opencv-sync/calibration/capture_pairs.py:76-142 | one pass: a failed read stops; '1'/'2' store the current frame of one camera; S saves both stored frames under the same counter and clears them only when both are stored; q stops |
| CalibrationCapturePairs.PairsNumberedFromZero | opencv-sync/calibration/capture_pairs.py:122-139 | saved pairs are numbered from 0 in order, and `pair_count` is their number |
| CalibrationCapturePairs.PairNamesDistinct | opencv-sync/calibration/capture_pairs.py:122-139 | no two saved pairs share a file name |
| CalibrationCapturePairs.RunPairLoop | opencv-sync/calibration/capture_pairs.py:71-142 | the `while True` loop computes exactly the fold over its passes: the saved pairs, the counter, the slots and how the loop ended |
| CalibrationCapturePairs.CaptureStereoPairs | opencv-sync/calibration/capture_pairs.py:12-146 | it stops before the loop exactly when camera 0 or camera 3 opens on no backend; otherwise the final state is the fold |
| MatchFacecamToZed.DigitsLackNameChars | opencv-sync/match_facecam_to_zed_simple.py:36-37 | a pair number contains no `/`, `p` or `.` |
| MatchFacecamToZed.BasenameOfPairFile | opencv-sync/match_facecam_to_zed_simple.py:36 | the basename of `scans/pair0_N.png` is `pair0_N.png` |
| MatchFacecamToZed.StripPairPrefix | opencv-sync/match_facecam_to_zed_simple.py:37 | removing `pair0_` from `pair0_N.png` leaves `N.png` |
| MatchFacecamToZed.StripPngSuffix | opencv-sync/match_facecam_to_zed_simple.py:37 | removing `.png` from `N.png` leaves `N` |
| MatchFacecamToZed.PartnerOfPairFile | opencv-sync/match_facecam_to_zed_simple.py:36-38 | the partner of `scans/pair0_N.png` is `scans/pair1_N.png` |
| MatchFacecamToZed.InsertSorted | opencv-sync/match_facecam_to_zed_simple.py:59-64 | adding one id to a strictly increasing list keeps it strictly increasing and adds exactly that id |
| MatchFacecamToZed.CommonIds | opencv-sync/match_facecam_to_zed_simple.py:59-64 | `np.intersect1d` is strictly increasing and holds exactly the ids found in both detections |
| MatchFacecamToZed.FirstIndex | opencv-sync/match_facecam_to_zed_simple.py:66-77 | `np.where(ids == x)[0][0]` is the first position of `x`, and it exists exactly when `x` occurs |
| MatchFacecamToZed.CorrespondOnePerId | opencv-sync/match_facecam_to_zed_simple.py:66-77 | one point pair per common id, in id order, each the first corner with that id in each detection |
| MatchFacecamToZed.DetectionsAcceptance | opencv-sync/match_facecam_to_zed_simple.py:51-82 | a detected pair is accepted exactly when both sides have at least 8 corners and at least 8 common ids; the accepted points follow the sorted common ids |
| MatchFacecamToZed.AcceptedPairShape | opencv-sync/match_facecam_to_zed_simple.py:36-82 | an accepted pair contributes equally many points from both cameras, at least 8 |
| MatchFacecamToZed.GatherLockstep | opencv-sync/match_facecam_to_zed_simple.py:79-82 | both point lists stay the same length, with at least 8 points per valid pair and no more valid pairs than files |
| MatchFacecamToZed.GatherGrowsByExtension | opencv-sync/match_facecam_to_zed_simple.py:79-82 | points gathered from a prefix of the files are a prefix of those from all files |
| MatchFacecamToZed.CollectCorrespondences | opencv-sync/match_facecam_to_zed_simple.py:66-77 | the inner loop computes exactly the per-id correspondence |
| MatchFacecamToZed.MatchPair | opencv-sync/match_facecam_to_zed_simple.py:35-82 | one pair file's outcome: skipped for a missing partner, an unreadable image or a failed gate; accepted pairs have equal-length point lists of at least 8 |
| MatchFacecamToZed.GatherPairs | opencv-sync/match_facecam_to_zed_simple.py:34-83 | the loop over pair files computes exactly the accumulation |
| MatchFacecamToZed.FindCorrespondences | opencv-sync/match_facecam_to_zed_simple.py:13-90 | `None` exactly when there are no pair files or fewer than 3 valid pairs; otherwise equally many points from both cameras, at least 24 |
| MatchFacecamToZed.ComputePerspectiveTransform | opencv-sync/match_facecam_to_zed_simple.py:92-127 | the homography is fitted with RANSAC threshold 5.0 on the gathered points and saved to `data/facecam_to_zed_transform.npy` exactly when one results; none without correspondences or when the fit raises |
| CalibrateCamerasClean.AcceptedFiles | opencv-sync/calibration/calibrate_cameras_clean.py:44-74 | the accepted files (read, at least 8 corners detected, at least 8 of them on the board) listed by position, ascending, each once, and all of them |
| CalibrateCamerasClean.BatchEntriesFollowFiles | opencv-sync/calibration/calibrate_cameras_clean.py:62-86 | entry k of `objpoints`/`imgpoints` comes from the k-th accepted file: its kept board points, and its image points each refined by `cornerSubPix` on that file's image |
| CalibrateCamerasClean.BatchLockstep | opencv-sync/calibration/calibrate_cameras_clean.py:83-86 | object and image point lists stay in lockstep with `valid_images`, each view with at least 8 points, and an image size is known once a view is kept |
| CalibrateCamerasClean.FirstReadable | opencv-sync/calibration/calibrate_cameras_clean.py:46-52 | the first file in list order that `imread` can read; none earlier could |
| CalibrateCamerasClean.BatchImageSize | opencv-sync/calibration/calibrate_cameras_clean.py:46-52 | the image size used is that of the first readable image |
| CalibrateCamerasClean.CalibrateCamera | opencv-sync/calibration/calibrate_cameras_clean.py:13-125 | it fails with no files or fewer than 5 valid images; a success comes from a nonzero-RMS solver result on the gathered views, and only then are `K_<prefix>.npy` and `dist_<prefix>.npy` written |
| CalibrateCamerasClean.Summarize | opencv-sync/calibration/calibrate_cameras_clean.py:150-171 | the summary reports both, none, or exactly the one camera that succeeded |
| CalibrateCamerasClean.CalibrateBoth | opencv-sync/calibration/calibrate_cameras_clean.py:127-171 | both cameras are calibrated independently, the files of each success are written, and the summary says both, none, or lists exactly the one camera that calibrated |
| CalibrateSimple.GatheredLockstep | opencv-sync/calibrate_simple.py:58-62 | point lists stay in lockstep with `valid_images`, each view with at least 8 points, and each file adds one view exactly when it is accepted |
| CalibrateSimple.AcceptedFiles | opencv-sync/calibrate_simple.py:34-62 | the accepted files (read, more than 8 corners detected, at least 8 of them on the board) listed by position, ascending, each once, and all of them |
| CalibrateSimple.GatheredEntriesFollowFiles | opencv-sync/calibrate_simple.py:51-62 | entry k of `all_obj_points`/`all_img_points` comes from the k-th accepted file: its kept board points and their detected image points |
| CalibrateSimple.AcceptedCounted | opencv-sync/calibrate_simple.py:43-62 | every accepted file adds a view |
| CalibrateSimple.UnreadableNoneAccepted | opencv-sync/calibrate_simple.py:36-38 | when no file can be read, no view is gathered |
| CalibrateSimple.CalibrateCameraSimple | opencv-sync/calibrate_simple.py:12-94 | `(None, None)` with no files or fewer than 10 valid images; it crashes exactly when there are enough views but `image_files[0]` is unreadable; a matrix comes from a nonzero-RMS solver result |
| CalibrateSimple.UnreadableFirstFileCrashes | opencv-sync/calibrate_simple.py:76-77 | eleven files whose first is unreadable and whose other ten are accepted make the calibration crash |
| CalibrateSimple.CorrectedNeverCrashes | opencv-sync/calibrate_simple.py:76-77 | taking the size from the first readable file never crashes, and it agrees with the code whenever the first file is readable |
| CalibrateSimple.SimpleMain | opencv-sync/calibrate_simple.py:96-129 | the run crashes exactly when one calibration crashes; otherwise it saves the `data/K_*.npy`/`data/dist_*.npy` files of each success and reports both only when both succeeded |
| CompareRectificationOptions.LoadDualMaps | opencv-sync/compare_rectification_options.py:39-47 | the dual maps are loaded exactly when all four files load, and then they hold the four loaded arrays |
| CompareRectificationOptions.ModeFallsBack | opencv-sync/compare_rectification_options.py:66-83 | option 1 warps exactly when a transform loaded, option 2 remaps exactly when the maps loaded, and everything else (including option 3) shows the raw frames |
| CompareRectificationOptions.ZedUntouchedUnlessRemapped | opencv-sync/compare_rectification_options.py:66-83 | the ZED frame changes only under remapping; pass-through shows both raw frames; warping applies the transform to the FaceCam frame |
| CompareRectificationOptions.StoppedRunIsFinal | opencv-sync/compare_rectification_options.py:57-122 | after a `break` no later pass changes anything |
| CompareRectificationOptions.CompareStepEffects | opencv-sync/compare_rectification_options.py:58-122 | one pass: a failed read stops; frames as shown that `np.hstack` rejects (line 92) raise before the key is read, so nothing is saved and the script ends; otherwise q stops, S saves the rectified pair under the current option and counter, and 1/2/3 select the option |
| CompareRectificationOptions.UnstackableFirstPassSavesNothing | opencv-sync/compare_rectification_options.py:66-92 | a first pass whose shown frames differ in height (a FaceCam frame warped to 1920x1080 beside a 1280x720 ZED frame) ends the script with nothing saved, even on S |
| CompareRectificationOptions.ComparisonsNumbered | opencv-sync/compare_rectification_options.py:54-55 | the option stays within 1..3, the counter counts the saved pairs, and pair `n` is named `comparison_<camera>_<option>_<n:03d>.png` for some option |
| CompareRectificationOptions.ComparisonNameInjective | opencv-sync/compare_rectification_options.py:110-111 | two comparison names of one camera are equal only for equal counters |
| CompareRectificationOptions.ComparisonsNeverOverwritten | opencv-sync/compare_rectification_options.py:108-113 | no two saved comparison pairs share a file name, whatever options were selected in between |
| CompareRectificationOptions.CompareRectificationOptions | opencv-sync/compare_rectification_options.py:10-125 | it stops before the loop exactly when either device does not open; otherwise it loads the transform and maps and the final state is the fold, which ends on a failed read, q/Q, or a pair of frames `np.hstack` rejects |

## Left out

- OpenCV's algorithms (ArUco/ChArUco detection, `cornerSubPix`, `calibrateCamera`, `findHomography`, `warpPerspective`, `remap`, `cvtColor`) are parameters; their numerical behaviour and floating point are not modelled.
- Window display (apart from `np.hstack` raising on frames it cannot join, which is modelled), `putText`/`drawDetectedMarkers` overlays, `time.sleep`, `print` and `os.makedirs` are left out. Saved comparison images are modelled without the text labels drawn on them.
- `cv2.imwrite` and `np.save` always succeed in the model; what they write is the list of files in write order.
- `PathNames.Basename`: POSIX separators only. The Windows `\` separator of `os.path.basename` is not modelled.
- `Common.IndexedName` and the other saved-file names: `os.path.join(scans_dir, name)` is modelled as `scans/` + name, the POSIX separator. On Windows, where the DirectShow and Media Foundation backends run, `os.path.join` inserts `\`; the model does not capture that.
- `CaptureZedTryDirect.NegotiateAndApply`: when no target beats the start, the device ends at whatever it reports for the start request; the model promises the start itself only for a device that delivers the start again when asked.
- Releasing devices is modelled only where the script's control flow decides it: `capture_stereo_pairs.py` and the try-direct attempt loop. In `calibration/capture_pairs.py`, camera 0 is not released when camera 3 then fails to open; the model does not track that.
- FPS and other `cap.set`/`cap.get` properties besides width and height are not modelled.
- A device's reported size depends only on the target requested last. A device whose answer depends on its history is not modelled.
- The `while True` loops run over a finite sequence of passes. A loop that never ends is represented by its finite prefixes.
- In `compare_rectification_options.py`, an exception from `np.load` other than a missing file is not modelled; every failed load falls back.
- `match_facecam_to_zed_simple.py`'s `test_transform` and `main`, `compare_rectification_options.py`'s `show_recommendations`, and the other scripts of the repository (stereo rectification, live viewers, device listing) are not part of this model.
- `calibrate_cameras_clean.py` and `calibrate_simple.py`: the RMS error is a real compared only against zero; its value is not modelled.

## Findings

| source | as written | input that shows it | evidently intended | confidence | as-written member | corrected member |
|---|---|---|---|---|---|---|
| opencv-sync/calibrate_simple.py:76-77 | the image size for `calibrateCamera` is read from `image_files[0]`, whether or not that file could be read | eleven images where the first is unreadable and the other ten each give an accepted view: `cv2.imread` returns `None` and `.shape` raises | use the size of an image that was actually read (the loop already skips unreadable files) | not executed | CalibrateSimple.UnreadableFirstFileCrashes | CalibrateSimple.CorrectedNeverCrashes |
| opencv-sync/capture_zed_try_direct.py:82-99 | `best_resolution` is tracked but never applied; the device stays at the last target requested (800x600) | a ZED that first delivers 1280x720 and honours every request: best is 1920x1080, final size 800x600 | request the winning size again after the loop (the start when no target beat it) | not executed | CaptureZedTryDirect.BestResolutionNotApplied | CaptureZedTryDirect.NegotiateAndApply |

The script-level members (`CalibrateSimple.SimpleMain`, `CaptureZedTryDirect.CaptureZedTryDirect`) keep the code's behaviour as written. The corrected definitions (`CalibrateSimple.CorrectedSimpleCalibrationOf`, `CaptureZedTryDirect.NegotiateAndApply`) stand beside them with their properties proved.

=== FILE: calibrate_cameras_clean.dfy ===
/**
 * opencv-sync/calibration/calibrate_cameras_clean.py: per-camera intrinsic
 * calibration from the saved `scans/cal_<prefix>_*.png` images, and the
 * summary over FaceCam and ZED.
 *
 * The sorted file listing is an input. `cv2.imread`, the image shape,
 * `CharucoDetector.detectBoard`, `cv2.cornerSubPix` and `cv2.calibrateCamera`
 * are function-typed parameters; the board's marker corners are a sequence.
 */
module CalibrateCamerasClean {
  import opened Common
  import opened Charuco

  /** Corners a detection must have, and board correspondences that must remain. */
  const MinCorners := 8
  /** Accepted images needed before the solver is called. */
  const MinValidImages := 5

  /** What the scripts call on an image: read, measure, detect, refine. */
  datatype Camera<!I, S, !P> = Camera(
    imread: string -> Option<I>,
    sizeOf: I -> S,
    detect: I -> Option<seq<Corner<P>>>,
    refine: (I, P) -> P)

  /** What `cv2.calibrateCamera` does: raise, or return the RMS error, matrix and distortion. */
  datatype Solve<K, D> = SolverRaised | SolverReturned(rms: real, k: Option<K>, dist: Option<D>)

  /**
   * The tuple `calibrate_camera` returns: `Failed` stands for
   * `(False, None, None, inf)`, `Calibrated` for `(True, mtx, dist, ret)`.
   */
  datatype Calibration<K, D> = Failed | Calibrated(k: K, dist: D, rms: real)

  /** `cv2.cornerSubPix`: each corner is refined on its own, so the count is kept. */
  function Refined<I, P>(refine: (I, P) -> P, gray: I, pts: seq<P>): (r: seq<P>)
    ensures |r| == |pts|
    ensures forall i :: 0 <= i < |pts| ==> r[i] == refine(gray, pts[i])
  {
    seq(|pts|, i requires 0 <= i < |pts| => refine(gray, pts[i]))
  }

  /** `objpoints`, `imgpoints`, `image_size` and `valid_images` after some of the files. */
  datatype Batch<Q, P, S> = Batch(objPoints: seq<seq<Q>>, imgPoints: seq<seq<P>>, imageSize: Option<S>, validImages: nat)

  /** The body of the loop over `image_files`, for one file. */
  function AddImage<I, S, P, Q>(b: Batch<Q, P, S>, path: string, cam: Camera<I, S, P>,
                                board: seq<MarkerCorners<Q>>): Batch<Q, P, S>
  {
    match cam.imread(path)
    case None => b
    case Some(gray) =>
      var sized := if b.imageSize.None? then b.(imageSize := Some(cam.sizeOf(gray))) else b;
      match cam.detect(gray)
      case None => sized
      case Some(d) =>
        if |d| < MinCorners then sized
        else
          var v := ViewOf(d, board);
          if |v.obj| < MinCorners then sized
          else sized.(objPoints := sized.objPoints + [v.obj],
                      imgPoints := sized.imgPoints + [Refined(cam.refine, gray, v.img)],
                      validImages := sized.validImages + 1)
  }

  /** The calibration data gathered from `files` in order. */
  function BatchOf<I, S, P, Q>(files: seq<string>, cam: Camera<I, S, P>, board: seq<MarkerCorners<Q>>): Batch<Q, P, S>
  {
    if files == [] then Batch([], [], None, 0)
    else AddImage(BatchOf(files[..|files| - 1], cam, board), files[|files| - 1], cam, board)
  }

  lemma BatchStep<I, S, P, Q>(files: seq<string>, n: nat, cam: Camera<I, S, P>, board: seq<MarkerCorners<Q>>)
    requires n < |files|
    ensures BatchOf(files[..n + 1], cam, board) == AddImage(BatchOf(files[..n], cam, board), files[n], cam, board)
  {
    assert files[..n + 1][..n] == files[..n];
  }

  /**
   * The two lists grow in lockstep, one entry per accepted image, which
   * `valid_images` counts; every entry pairs at least 8 board points with as
   * many image points; and once an image has been accepted the size is known.
   */
  lemma {:induction false} BatchLockstep<I, S, P, Q>(files: seq<string>, cam: Camera<I, S, P>, board: seq<MarkerCorners<Q>>)
    ensures var b := BatchOf(files, cam, board);
      && |b.objPoints| == |b.imgPoints| == b.validImages <= |files|
      && (forall k :: 0 <= k < b.validImages ==> |b.objPoints[k]| == |b.imgPoints[k]| >= MinCorners)
      && (b.validImages > 0 ==> b.imageSize.Some?)
  {
    if files != [] {
      var init := files[..|files| - 1];
      BatchLockstep(init, cam, board);
      var path := files[|files| - 1];
      if cam.imread(path).Some? {
        var gray := cam.imread(path).value;
        if cam.detect(gray).Some? {
          ViewOfKept(cam.detect(gray).value, board);
        }
      }
    }
  }

  /** Whether the loop body adds a view for this file: it reads, the board is found with at least 8 corners, and at least 8 of them index the board. */
  predicate Accepts<I, S, P, Q>(path: string, cam: Camera<I, S, P>, board: seq<MarkerCorners<Q>>) {
    && cam.imread(path).Some?
    && cam.detect(cam.imread(path).value).Some?
    && |cam.detect(cam.imread(path).value).value| >= MinCorners
    && |ViewOf(cam.detect(cam.imread(path).value).value, board).obj| >= MinCorners
  }

  /** The positions of the accepted files, ascending. */
  function AcceptedFiles<I, S, P, Q>(files: seq<string>, cam: Camera<I, S, P>, board: seq<MarkerCorners<Q>>): (m: seq<nat>)
    ensures forall j :: 0 <= j < |m| ==> m[j] < |files| && Accepts(files[m[j]], cam, board)
    ensures forall j, l :: 0 <= j < l < |m| ==> m[j] < m[l]
    ensures forall i :: 0 <= i < |files| && Accepts(files[i], cam, board) ==> i in m
  {
    if files == [] then []
    else
      var prev := AcceptedFiles(files[..|files| - 1], cam, board);
      if Accepts(files[|files| - 1], cam, board) then prev + [|files| - 1] else prev
  }

  /**
   * Entry k of `objpoints` and `imgpoints` comes from the k-th accepted file:
   * the board points of its kept corners, and their image points each refined
   * by `cornerSubPix` on that file's image.
   */
  lemma {:induction false} BatchEntriesFollowFiles<I, S, P, Q>(files: seq<string>, cam: Camera<I, S, P>,
                                                              board: seq<MarkerCorners<Q>>)
    ensures var b, m := BatchOf(files, cam, board), AcceptedFiles(files, cam, board);
      && |b.objPoints| == |b.imgPoints| == |m|
      && forall k :: 0 <= k < |m| ==>
           var gray := cam.imread(files[m[k]]).value;
           var v := ViewOf(cam.detect(gray).value, board);
           b.objPoints[k] == v.obj && b.imgPoints[k] == Refined(cam.refine, gray, v.img)
  {
    if files != [] {
      var init := files[..|files| - 1];
      BatchEntriesFollowFiles(init, cam, board);
      var path := files[|files| - 1];
      var b0, m0 := BatchOf(init, cam, board), AcceptedFiles(init, cam, board);
      var b, m := BatchOf(files, cam, board), AcceptedFiles(files, cam, board);
      if Accepts(path, cam, board) {
        var gray := cam.imread(path).value;
        var v := ViewOf(cam.detect(gray).value, board);
        assert m == m0 + [|files| - 1];
        assert b.objPoints == b0.objPoints + [v.obj] && b.imgPoints == b0.imgPoints + [Refined(cam.refine, gray, v.img)];
      } else {
        assert m == m0 && b.objPoints == b0.objPoints && b.imgPoints == b0.imgPoints;
      }
      forall k | 0 <= k < |m0| ensures files[m[k]] == init[m0[k]] && b.objPoints[k] == b0.objPoints[k] && b.imgPoints[k] == b0.imgPoints[k] {
      }
    }
  }

  /** The index of the first file that reads, if any. */
  function FirstReadable<I>(files: seq<string>, imread: string -> Option<I>): (r: Option<nat>)
    ensures r.Some? ==> r.value < |files| && imread(files[r.value]).Some?
    ensures r.Some? ==> forall j :: 0 <= j < r.value ==> imread(files[j]).None?
    ensures r.None? ==> forall j :: 0 <= j < |files| ==> imread(files[j]).None?
  {
    if files == [] then None
    else if imread(files[0]).Some? then Some(0)
    else match FirstReadable(files[1..], imread)
      case None => None
      case Some(j) => Some(j + 1)
  }

  /**
   * `image_size` is the shape of the first image that reads, whether or not
   * the board is found in it, and is never changed afterwards.
   */
  lemma {:induction false} BatchImageSize<I, S, P, Q>(files: seq<string>, cam: Camera<I, S, P>, board: seq<MarkerCorners<Q>>)
    ensures var first := FirstReadable(files, cam.imread);
      BatchOf(files, cam, board).imageSize
        == if first.None? then None else Some(cam.sizeOf(cam.imread(files[first.value]).value))
  {
    if files != [] {
      var n := |files| - 1;
      var init := files[..n];
      BatchImageSize(init, cam, board);
      var before, after := FirstReadable(init, cam.imread), FirstReadable(files, cam.imread);
      if before.Some? {
        var i := before.value;
        assert files[i] == init[i];
        forall j | 0 <= j < i ensures cam.imread(files[j]).None? {
          assert files[j] == init[j];
        }
        assert after == Some(i);
      } else {
        forall j | 0 <= j < n ensures cam.imread(files[j]).None? {
          assert files[j] == init[j];
        }
        if cam.imread(files[n]).Some? {
          assert after == Some(n);
        } else {
          assert after.None?;
        }
      }
    }
  }

  /** `K_<prefix>.npy` */
  function MatrixFile(prefix: string): string {
    "K_" + prefix + ".npy"
  }

  /** `dist_<prefix>.npy` */
  function DistortionFile(prefix: string): string {
    "dist_" + prefix + ".npy"
  }

  /** The solver's answer read as the script reads it: `ret and mtx is not None and dist is not None`. */
  function Accept<K, D>(s: Solve<K, D>): Calibration<K, D> {
    match s
    case SolverRaised => Failed
    case SolverReturned(rms, k, dist) =>
      if rms != 0.0 && k.Some? && dist.Some? then Calibrated(k.value, dist.value, rms) else Failed
  }

  /** What `calibrate_camera` returns. */
  function CalibrationOf<I, S, P, Q, K, D>(files: seq<string>, cam: Camera<I, S, P>, board: seq<MarkerCorners<Q>>,
                                          solve: (seq<seq<Q>>, seq<seq<P>>, S) -> Solve<K, D>): Calibration<K, D>
  {
    if |files| == 0 then Failed
    else
      var b := BatchOf(files, cam, board);
      if |b.objPoints| < MinValidImages then Failed
      else
        BatchLockstep(files, cam, board);
        Accept(solve(b.objPoints, b.imgPoints, b.imageSize.value))
  }

  /**
   * `calibrate_camera(prefix, camera_id)`: the files written are
   * `K_<prefix>.npy` and `dist_<prefix>.npy`, exactly when the camera
   * calibrated; with no files or fewer than 5 accepted images it fails; a
   * success carries the solver's non-zero error, matrix and distortion for
   * the gathered data.
   */
  method CalibrateCamera<I, S, P, Q, K, D>(prefix: string, files: seq<string>, cam: Camera<I, S, P>,
                                          board: seq<MarkerCorners<Q>>,
                                          solve: (seq<seq<Q>>, seq<seq<P>>, S) -> Solve<K, D>)
    returns (result: Calibration<K, D>, written: seq<string>)
    ensures result == CalibrationOf(files, cam, board, solve)
    ensures written == if result.Calibrated? then [MatrixFile(prefix), DistortionFile(prefix)] else []
    ensures |files| == 0 || BatchOf(files, cam, board).validImages < MinValidImages ==> result.Failed?
    ensures result.Calibrated? ==>
      var b := BatchOf(files, cam, board);
      && b.validImages >= MinValidImages
      && b.imageSize.Some?
      && result.rms != 0.0
      && solve(b.objPoints, b.imgPoints, b.imageSize.value) == SolverReturned(result.rms, Some(result.k), Some(result.dist))
  {
    BatchLockstep(files, cam, board);
    if |files| == 0 {
      return Failed, [];
    }
    var objpoints: seq<seq<Q>> := [];
    var imgpoints: seq<seq<P>> := [];
    var imageSize: Option<S> := None;
    var validImages := 0;
    for n := 0 to |files|
      invariant Batch(objpoints, imgpoints, imageSize, validImages) == BatchOf(files[..n], cam, board)
    {
      BatchStep(files, n, cam, board);
      var gray := cam.imread(files[n]);
      if gray.Some? {
        if imageSize.None? {
          imageSize := Some(cam.sizeOf(gray.value));
        }
        var detection := cam.detect(gray.value);
        if detection.Some? && |detection.value| >= MinCorners {
          var objPts, imgPts := CollectView(detection.value, board);
          if |objPts| >= MinCorners {
            var refinedCorners := Refined(cam.refine, gray.value, imgPts);
            objpoints := objpoints + [objPts];
            imgpoints := imgpoints + [refinedCorners];
            validImages := validImages + 1;
          }
        }
      }
    }
    assert files[..|files|] == files;
    if |objpoints| < MinValidImages {
      return Failed, [];
    }
    var solved := solve(objpoints, imgpoints, imageSize.value);
    if solved.SolverRaised? {
      return Failed, [];
    }
    if solved.rms != 0.0 && solved.k.Some? && solved.dist.Some? {
      return Calibrated(solved.k.value, solved.dist.value, solved.rms), [MatrixFile(prefix), DistortionFile(prefix)];
    }
    return Failed, [];
  }

  // ---------------------------------------------------------------------------
  // main(): both cameras and the summary
  // ---------------------------------------------------------------------------

  const FaceCamLabel := "FaceCam (Camera 0)"
  const ZedLabel := "ZED (Camera 2)"

  /** The closing line of the summary. */
  datatype Summary = BothCalibrated | OnlyCalibrated(cameras: seq<string>) | NoneCalibrated

  /**
   * One of three outcomes: both cameras, only the successful one, or none;
   * a camera is listed exactly when it calibrated, FaceCam before ZED.
   */
  method Summarize(facecamSuccess: bool, zedSuccess: bool) returns (summary: Summary)
    ensures summary.BothCalibrated? <==> facecamSuccess && zedSuccess
    ensures summary.NoneCalibrated? <==> !facecamSuccess && !zedSuccess
    ensures summary.OnlyCalibrated? ==>
      && |summary.cameras| == 1
      && (FaceCamLabel in summary.cameras <==> facecamSuccess)
      && (ZedLabel in summary.cameras <==> zedSuccess)
  {
    if facecamSuccess && zedSuccess {
      return BothCalibrated;
    } else if facecamSuccess || zedSuccess {
      var successfulCameras: seq<string> := [];
      if facecamSuccess {
        successfulCameras := successfulCameras + [FaceCamLabel];
      }
      if zedSuccess {
        successfulCameras := successfulCameras + [ZedLabel];
      }
      return OnlyCalibrated(successfulCameras);
    } else {
      return NoneCalibrated;
    }
  }

  /**
   * `main()`: FaceCam from `scans/cal_facecam_*.png`, then ZED from
   * `scans/cal_zed_*.png`; the files written are FaceCam's followed by ZED's,
   * and the summary reflects which of the two calibrated.
   */
  method CalibrateBoth<I, S, P, Q, K, D>(facecamFiles: seq<string>, zedFiles: seq<string>, cam: Camera<I, S, P>,
                                        board: seq<MarkerCorners<Q>>,
                                        solve: (seq<seq<Q>>, seq<seq<P>>, S) -> Solve<K, D>)
    returns (facecam: Calibration<K, D>, zed: Calibration<K, D>, written: seq<string>, summary: Summary)
    ensures facecam == CalibrationOf(facecamFiles, cam, board, solve)
    ensures zed == CalibrationOf(zedFiles, cam, board, solve)
    ensures written == (if facecam.Calibrated? then ["K_facecam.npy", "dist_facecam.npy"] else [])
                     + (if zed.Calibrated? then ["K_zed.npy", "dist_zed.npy"] else [])
    ensures summary.BothCalibrated? <==> facecam.Calibrated? && zed.Calibrated?
    ensures summary.NoneCalibrated? <==> facecam.Failed? && zed.Failed?
    ensures summary.OnlyCalibrated? ==>
      && |summary.cameras| == 1
      && (FaceCamLabel in summary.cameras <==> facecam.Calibrated?)
      && (ZedLabel in summary.cameras <==> zed.Calibrated?)
  {
    var writtenFacecam, writtenZed;
    facecam, writtenFacecam := CalibrateCamera("facecam", facecamFiles, cam, board, solve);
    zed, writtenZed := CalibrateCamera("zed", zedFiles, cam, board, solve);
    written := writtenFacecam + writtenZed;
    assert MatrixFile("facecam") == "K_facecam.npy" && DistortionFile("facecam") == "dist_facecam.npy";
    assert MatrixFile("zed") == "K_zed.npy" && DistortionFile("zed") == "dist_zed.npy";
    summary := Summarize(facecam.Calibrated?, zed.Calibrated?);
  }
}

=== FILE: calibrate_simple.dfy ===
/**
 * opencv-sync/calibrate_simple.py: the simpler per-camera calibration, with
 * its own thresholds (more than 8 corners, at least 10 images), the image
 * size read back from the first listed file, and the save logic of `main`.
 *
 * The sorted file listing is an input; `cv2.imread`, the image shape,
 * `CharucoDetector.detectBoard` and `cv2.calibrateCamera` are function-typed
 * parameters. No corner refinement happens in this script.
 */
module CalibrateSimple {
  import opened Common
  import opened Charuco
  import CalibrateCamerasClean

  /** A detection is considered only with strictly more corners than this. */
  const CornerFloor := 8
  /** Board correspondences that must remain after the id filter. */
  const MinKept := 8
  /** Accepted images needed before the solver is called. */
  const MinValidImages := 10

  /** What the script calls on an image: read, measure, detect. */
  datatype Reader<!I, S, !P> = Reader(imread: string -> Option<I>, sizeOf: I -> S, detect: I -> Option<seq<Corner<P>>>)

  /** `all_obj_points`, `all_img_points` and `valid_images` after some of the files. */
  datatype Gathered<Q, P> = Gathered(objPoints: seq<seq<Q>>, imgPoints: seq<seq<P>>, validImages: nat)

  /** The image at `path` reads, shows more than 8 corners and keeps at least 8 of them. */
  predicate Accepted<I, S, P, Q>(path: string, cam: Reader<I, S, P>, board: seq<MarkerCorners<Q>>) {
    && cam.imread(path).Some?
    && cam.detect(cam.imread(path).value).Some?
    && |cam.detect(cam.imread(path).value).value| > CornerFloor
    && |ViewOf(cam.detect(cam.imread(path).value).value, board).obj| >= MinKept
  }

  /** The body of the loop over `image_files`, for one file. */
  function AddImage<I, S, P, Q>(g: Gathered<Q, P>, path: string, cam: Reader<I, S, P>,
                                board: seq<MarkerCorners<Q>>): Gathered<Q, P>
  {
    match cam.imread(path)
    case None => g
    case Some(img) =>
      match cam.detect(img)
      case None => g
      case Some(d) =>
        if |d| <= CornerFloor then g
        else
          var v := ViewOf(d, board);
          if |v.obj| >= MinKept then Gathered(g.objPoints + [v.obj], g.imgPoints + [v.img], g.validImages + 1)
          else g
  }

  /** The calibration data gathered from `files` in order. */
  function GatheredOf<I, S, P, Q>(files: seq<string>, cam: Reader<I, S, P>, board: seq<MarkerCorners<Q>>): Gathered<Q, P>
  {
    if files == [] then Gathered([], [], 0)
    else AddImage(GatheredOf(files[..|files| - 1], cam, board), files[|files| - 1], cam, board)
  }

  lemma GatherStep<I, S, P, Q>(files: seq<string>, n: nat, cam: Reader<I, S, P>, board: seq<MarkerCorners<Q>>)
    requires n < |files|
    ensures GatheredOf(files[..n + 1], cam, board) == AddImage(GatheredOf(files[..n], cam, board), files[n], cam, board)
  {
    assert files[..n + 1][..n] == files[..n];
  }

  /**
   * The two lists grow in lockstep, one entry per accepted image, which
   * `valid_images` counts; an image is accepted exactly when it passes both
   * gates, and its entry pairs at least 8 board points with as many image points.
   */
  lemma {:induction false} GatheredLockstep<I, S, P, Q>(files: seq<string>, cam: Reader<I, S, P>, board: seq<MarkerCorners<Q>>)
    ensures var g := GatheredOf(files, cam, board);
      && |g.objPoints| == |g.imgPoints| == g.validImages <= |files|
      && (forall k :: 0 <= k < g.validImages ==> |g.objPoints[k]| == |g.imgPoints[k]| >= MinKept)
      && (files != [] ==>
            var last := files[|files| - 1];
            var before := GatheredOf(files[..|files| - 1], cam, board);
            g.validImages == before.validImages + (if Accepted(last, cam, board) then 1 else 0))
  {
    if files != [] {
      var init := files[..|files| - 1];
      GatheredLockstep(init, cam, board);
      var path := files[|files| - 1];
      if cam.imread(path).Some? {
        var img := cam.imread(path).value;
        if cam.detect(img).Some? {
          ViewOfKept(cam.detect(img).value, board);
        }
      }
    }
  }

  /** The positions of the accepted files, ascending. */
  function AcceptedFiles<I, S, P, Q>(files: seq<string>, cam: Reader<I, S, P>, board: seq<MarkerCorners<Q>>): (m: seq<nat>)
    ensures forall j :: 0 <= j < |m| ==> m[j] < |files| && Accepted(files[m[j]], cam, board)
    ensures forall j, l :: 0 <= j < l < |m| ==> m[j] < m[l]
    ensures forall i :: 0 <= i < |files| && Accepted(files[i], cam, board) ==> i in m
  {
    if files == [] then []
    else
      var prev := AcceptedFiles(files[..|files| - 1], cam, board);
      if Accepted(files[|files| - 1], cam, board) then prev + [|files| - 1] else prev
  }

  /**
   * Entry k of `all_obj_points` and `all_img_points` comes from the k-th
   * accepted file: the board points of its kept corners and their detected
   * image points, unrefined.
   */
  lemma {:induction false} GatheredEntriesFollowFiles<I, S, P, Q>(files: seq<string>, cam: Reader<I, S, P>,
                                                                 board: seq<MarkerCorners<Q>>)
    ensures var g, m := GatheredOf(files, cam, board), AcceptedFiles(files, cam, board);
      && |g.objPoints| == |g.imgPoints| == |m|
      && forall k :: 0 <= k < |m| ==>
           var v := ViewOf(cam.detect(cam.imread(files[m[k]]).value).value, board);
           g.objPoints[k] == v.obj && g.imgPoints[k] == v.img
  {
    if files != [] {
      var init := files[..|files| - 1];
      GatheredEntriesFollowFiles(init, cam, board);
      var path := files[|files| - 1];
      var g0, m0 := GatheredOf(init, cam, board), AcceptedFiles(init, cam, board);
      var g, m := GatheredOf(files, cam, board), AcceptedFiles(files, cam, board);
      if Accepted(path, cam, board) {
        var img := cam.imread(path).value;
        var v := ViewOf(cam.detect(img).value, board);
        assert m == m0 + [|files| - 1];
        assert g.objPoints == g0.objPoints + [v.obj] && g.imgPoints == g0.imgPoints + [v.img];
      } else {
        assert m == m0 && g.objPoints == g0.objPoints && g.imgPoints == g0.imgPoints;
      }
      forall k | 0 <= k < |m0| ensures files[m[k]] == init[m0[k]] && g.objPoints[k] == g0.objPoints[k] && g.imgPoints[k] == g0.imgPoints[k] {
      }
    }
  }

  /** Every accepted file from index `from` on is counted. */
  lemma {:induction false} AcceptedCounted<I, S, P, Q>(files: seq<string>, from: nat, cam: Reader<I, S, P>,
                                                     board: seq<MarkerCorners<Q>>)
    requires forall i :: from <= i < |files| ==> Accepted(files[i], cam, board)
    ensures GatheredOf(files, cam, board).validImages + from >= |files|
  {
    if |files| > from {
      var init := files[..|files| - 1];
      forall i | from <= i < |init| ensures Accepted(init[i], cam, board) {
        assert init[i] == files[i];
      }
      AcceptedCounted(init, from, cam, board);
      GatheredLockstep(files, cam, board);
    }
  }

  /** When no file reads, no image is accepted. */
  lemma {:induction false} UnreadableNoneAccepted<I, S, P, Q>(files: seq<string>, cam: Reader<I, S, P>,
                                                            board: seq<MarkerCorners<Q>>)
    requires forall j :: 0 <= j < |files| ==> cam.imread(files[j]).None?
    ensures GatheredOf(files, cam, board).validImages == 0
  {
    if files != [] {
      var init := files[..|files| - 1];
      forall j | 0 <= j < |init| ensures cam.imread(init[j]).None? {
        assert init[j] == files[j];
      }
      UnreadableNoneAccepted(init, cam, board);
    }
  }

  /** What `calibrate_camera_simple` returns, or the `AttributeError` it raises. */
  datatype Outcome<K, D> = Returned(k: Option<K>, dist: Option<D>) | Crashed

  /** The solver's answer read as the script reads it: `(K, dist)` when `ret` is truthy. */
  function Accept<K, D>(s: CalibrateCamerasClean.Solve<K, D>): Outcome<K, D> {
    match s
    case SolverRaised => Returned(None, None)
    case SolverReturned(rms, k, dist) => if rms != 0.0 then Returned(k, dist) else Returned(None, None)
  }

  /**
   * `calibrate_camera_simple(camera_name, image_pattern)` as written: the
   * image size comes from reading `image_files[0]` again, and when that
   * read fails `img.shape` raises outside the `try`.
   */
  function SimpleCalibrationOf<I, S, P, Q, K, D>(files: seq<string>, cam: Reader<I, S, P>, board: seq<MarkerCorners<Q>>,
                                                solve: (seq<seq<Q>>, seq<seq<P>>, S) -> CalibrateCamerasClean.Solve<K, D>)
    : Outcome<K, D>
  {
    if |files| == 0 then Returned(None, None)
    else
      var g := GatheredOf(files, cam, board);
      if g.validImages < MinValidImages then Returned(None, None)
      else
        match cam.imread(files[0])
        case None => Crashed
        case Some(img) => Accept(solve(g.objPoints, g.imgPoints, cam.sizeOf(img)))
  }

  /**
   * `calibrate_camera_simple`: no files or fewer than 10 accepted images
   * give `(None, None)` without solving; otherwise the size is that of the
   * first listed file, and `(K, dist)` come back only with a non-zero error.
   */
  method CalibrateCameraSimple<I, S, P, Q, K, D>(files: seq<string>, cam: Reader<I, S, P>, board: seq<MarkerCorners<Q>>,
                                                solve: (seq<seq<Q>>, seq<seq<P>>, S) -> CalibrateCamerasClean.Solve<K, D>)
    returns (outcome: Outcome<K, D>)
    ensures outcome == SimpleCalibrationOf(files, cam, board, solve)
    ensures |files| == 0 || GatheredOf(files, cam, board).validImages < MinValidImages ==> outcome == Returned(None, None)
    ensures outcome.Crashed? <==>
      |files| > 0 && GatheredOf(files, cam, board).validImages >= MinValidImages && cam.imread(files[0]).None?
    ensures outcome.Returned? && outcome.k.Some? ==>
      var g := GatheredOf(files, cam, board);
      && g.validImages >= MinValidImages
      && cam.imread(files[0]).Some?
      && var s := solve(g.objPoints, g.imgPoints, cam.sizeOf(cam.imread(files[0]).value));
         s.SolverReturned? && s.rms != 0.0 && s.k == outcome.k && s.dist == outcome.dist
  {
    if |files| == 0 {
      return Returned(None, None);
    }
    var allObjPoints: seq<seq<Q>> := [];
    var allImgPoints: seq<seq<P>> := [];
    var validImages := 0;
    for n := 0 to |files|
      invariant Gathered(allObjPoints, allImgPoints, validImages) == GatheredOf(files[..n], cam, board)
    {
      GatherStep(files, n, cam, board);
      var img := cam.imread(files[n]);
      if img.Some? {
        var detection := cam.detect(img.value);
        if detection.Some? && |detection.value| > CornerFloor {
          var objPts, imgPts := CollectView(detection.value, board);
          if |objPts| >= MinKept {
            allObjPoints := allObjPoints + [objPts];
            allImgPoints := allImgPoints + [imgPts];
            validImages := validImages + 1;
          }
        }
      }
    }
    assert files[..|files|] == files;
    if validImages < MinValidImages {
      return Returned(None, None);
    }
    var first := cam.imread(files[0]);
    if first.None? {
      return Crashed;
    }
    var imageSize := cam.sizeOf(first.value);
    var solved := solve(allObjPoints, allImgPoints, imageSize);
    if solved.SolverRaised? {
      return Returned(None, None);
    }
    if solved.rms != 0.0 {
      return Returned(solved.k, solved.dist);
    }
    return Returned(None, None);
  }

  /**
   * As written, an unreadable first file crashes the run even when every
   * other file was accepted: eleven files, the first unreadable and the
   * other ten accepted, are enough.
   */
  lemma UnreadableFirstFileCrashes<I, S, P, Q, K, D>(files: seq<string>, cam: Reader<I, S, P>, board: seq<MarkerCorners<Q>>,
                                                    solve: (seq<seq<Q>>, seq<seq<P>>, S) -> CalibrateCamerasClean.Solve<K, D>)
    requires |files| == MinValidImages + 1
    requires cam.imread(files[0]).None?
    requires forall i :: 1 <= i < |files| ==> Accepted(files[i], cam, board)
    ensures SimpleCalibrationOf(files, cam, board, solve) == Crashed
  {
    AcceptedCounted(files, 1, cam, board);
  }

  /**
   * The evidently intended behaviour: the size of the first file that reads,
   * as the clean calibration script takes it.
   */
  function CorrectedSimpleCalibrationOf<I, S, P, Q, K, D>(files: seq<string>, cam: Reader<I, S, P>, board: seq<MarkerCorners<Q>>,
                                                         solve: (seq<seq<Q>>, seq<seq<P>>, S) -> CalibrateCamerasClean.Solve<K, D>)
    : Outcome<K, D>
  {
    if |files| == 0 then Returned(None, None)
    else
      var g := GatheredOf(files, cam, board);
      if g.validImages < MinValidImages then Returned(None, None)
      else
        match CalibrateCamerasClean.FirstReadable(files, cam.imread)
        case None => Crashed
        case Some(i) => Accept(solve(g.objPoints, g.imgPoints, cam.sizeOf(cam.imread(files[i]).value)))
  }

  /**
   * With the size taken from the first readable file the call never crashes,
   * and it agrees with the script whenever the first listed file reads.
   */
  lemma CorrectedNeverCrashes<I, S, P, Q, K, D>(files: seq<string>, cam: Reader<I, S, P>, board: seq<MarkerCorners<Q>>,
                                               solve: (seq<seq<Q>>, seq<seq<P>>, S) -> CalibrateCamerasClean.Solve<K, D>)
    ensures CorrectedSimpleCalibrationOf(files, cam, board, solve).Returned?
    ensures |files| > 0 && cam.imread(files[0]).Some? ==>
      CorrectedSimpleCalibrationOf(files, cam, board, solve) == SimpleCalibrationOf(files, cam, board, solve)
  {
    if CalibrateCamerasClean.FirstReadable(files, cam.imread).None? {
      UnreadableNoneAccepted(files, cam, board);
    }
  }

  // ---------------------------------------------------------------------------
  // main(): both cameras, then the saves
  // ---------------------------------------------------------------------------

  /** How `main` ends: the exception escapes, or the files saved and the closing verdict. */
  datatype MainRun = MainCrashed | MainFinished(saved: seq<string>, bothCalibrated: bool)

  /** The files saved for one camera: both, only when K and dist are both present. */
  function SavedFiles<K, D>(o: Outcome<K, D>, matrixFile: string, distFile: string): seq<string> {
    if o.Returned? && o.k.Some? && o.dist.Some? then [matrixFile, distFile] else []
  }

  /**
   * `main()`: FaceCam, then ZED; a crash in either call ends the run before
   * anything is saved; otherwise each camera's two files are saved when its
   * K and dist are both present, and "both calibrated" needs both K values.
   */
  method SimpleMain<I, S, P, Q, K, D>(facecamFiles: seq<string>, zedFiles: seq<string>, cam: Reader<I, S, P>,
                                     board: seq<MarkerCorners<Q>>,
                                     solve: (seq<seq<Q>>, seq<seq<P>>, S) -> CalibrateCamerasClean.Solve<K, D>)
    returns (run: MainRun)
    ensures var f, z := SimpleCalibrationOf(facecamFiles, cam, board, solve), SimpleCalibrationOf(zedFiles, cam, board, solve);
      && (run.MainCrashed? <==> f.Crashed? || z.Crashed?)
      && (run.MainFinished? ==>
            && run.saved == SavedFiles(f, "data/K_facecam.npy", "data/dist_facecam.npy")
                          + SavedFiles(z, "data/K_zed.npy", "data/dist_zed.npy")
            && (run.bothCalibrated <==> f.k.Some? && z.k.Some?))
  {
    var facecam := CalibrateCameraSimple(facecamFiles, cam, board, solve);
    if facecam.Crashed? {
      return MainCrashed;
    }
    var zed := CalibrateCameraSimple(zedFiles, cam, board, solve);
    if zed.Crashed? {
      return MainCrashed;
    }
    var saved: seq<string> := [];
    if facecam.k.Some? && facecam.dist.Some? {
      saved := saved + ["data/K_facecam.npy", "data/dist_facecam.npy"];
    }
    if zed.k.Some? && zed.dist.Some? {
      saved := saved + ["data/K_zed.npy", "data/dist_zed.npy"];
    }
    return MainFinished(saved, facecam.k.Some? && zed.k.Some?);
  }
}

=== FILE: capture_facecam_simple.dfy ===
/**
 * opencv-sync/capture_facecam_simple.py: opening the FaceCam with up to
 * three attempts, then the capture loop with a failed-read counter that is
 * reset by every good frame.
 *
 * Each open attempt's result, `cv2.cvtColor` and
 * `ArucoDetector.detectMarkers` are function-typed parameters; the reads and
 * keys of each pass are an input sequence; the images written are logged.
 */
module CaptureFacecamSimple {
  import opened Common

  const MaxAttempts := 3
  /** The loop stops once the counter exceeds this. */
  const MaxFailedReads := 10
  const Stem := "cal_facecam_hd_"

  /** One attempt: the device did not open, opened but gave no frame, or gave a frame. */
  datatype Probe = NotOpened | OpenedNoFrame | OpenedWithFrame

  /**
   * The attempt loop: at most three attempts, stopping at the first whose
   * device opens and delivers a frame; `cap` is left None when all three fail.
   */
  method OpenWithRetry(probe: nat -> Probe) returns (cap: Option<nat>, attempts: nat)
    ensures attempts == if cap.Some? then cap.value + 1 else MaxAttempts
    ensures cap.Some? ==> cap.value < MaxAttempts && probe(cap.value).OpenedWithFrame?
    ensures forall a :: 0 <= a < attempts && (cap.None? || a != cap.value) ==> !probe(a).OpenedWithFrame?
  {
    cap := None;
    attempts := 0;
    for attempt := 0 to MaxAttempts
      invariant attempts == attempt
      invariant forall a :: 0 <= a < attempt ==> !probe(a).OpenedWithFrame?
    {
      attempts := attempts + 1;
      if probe(attempt).OpenedWithFrame? {
        cap := Some(attempt);
        return;
      }
    }
  }

  /** One pass of the loop; a stopped loop reads nothing more. */
  function FacecamStep<F, G>(s: SaveState<G>, t: Tick<F>, toGray: F -> G, markerIds: G -> Option<seq<nat>>): SaveState<G> {
    if s.status != Running then s
    else
      match t
      case ReadFailed =>
        var failed := s.failedReads + 1;
        s.(failedReads := failed, status := if failed > MaxFailedReads then TooManyReadFailures else Running)
      case Read(frame, key) =>
        var gray := toGray(frame);
        HandleKey(s.(failedReads := 0), key, gray, markerIds(gray), Stem)
  }

  /** The loop's variables after the passes in `ticks`. */
  function FacecamRun<F, G>(ticks: seq<Tick<F>>, toGray: F -> G, markerIds: G -> Option<seq<nat>>): SaveState<G> {
    if ticks == [] then SaveState(0, 0, [], Running)
    else FacecamStep(FacecamRun(ticks[..|ticks| - 1], toGray, markerIds), ticks[|ticks| - 1], toGray, markerIds)
  }

  /** Once the loop has stopped, later passes change nothing. */
  lemma {:induction false} StoppedRunIsFinal<F, G>(ticks: seq<Tick<F>>, k: nat, toGray: F -> G,
                                                  markerIds: G -> Option<seq<nat>>)
    requires k <= |ticks|
    requires FacecamRun(ticks[..k], toGray, markerIds).status != Running
    ensures FacecamRun(ticks, toGray, markerIds) == FacecamRun(ticks[..k], toGray, markerIds)
    decreases |ticks|
  {
    if k < |ticks| {
      var init := ticks[..|ticks| - 1];
      assert init[..k] == ticks[..k];
      StoppedRunIsFinal(init, k, toGray, markerIds);
    } else {
      assert ticks[..k] == ticks;
    }
  }

  /** The number of failed reads at the end of `ticks`, after the last good one. */
  function TrailingFailures<F>(ticks: seq<Tick<F>>): (n: nat)
    ensures n <= |ticks|
    ensures forall j :: |ticks| - n <= j < |ticks| ==> ticks[j].ReadFailed?
    ensures n < |ticks| ==> ticks[|ticks| - n - 1].Read?
  {
    if ticks == [] || ticks[|ticks| - 1].Read? then 0
    else TrailingFailures(ticks[..|ticks| - 1]) + 1
  }

  /**
   * While the loop runs, the counter is the number of failed reads since the
   * last good frame, and it is at most 10.
   */
  lemma {:induction false} CounterCountsConsecutiveFailures<F, G>(ticks: seq<Tick<F>>, toGray: F -> G,
                                                                  markerIds: G -> Option<seq<nat>>)
    requires FacecamRun(ticks, toGray, markerIds).status == Running
    ensures FacecamRun(ticks, toGray, markerIds).failedReads == TrailingFailures(ticks) <= MaxFailedReads
  {
    if ticks != [] {
      var init := ticks[..|ticks| - 1];
      CounterCountsConsecutiveFailures(init, toGray, markerIds);
      if ticks[|ticks| - 1].Read? {
        HandleKeySaves(FacecamRun(init, toGray, markerIds).(failedReads := 0), ticks[|ticks| - 1].key,
                       toGray(ticks[|ticks| - 1].frame), markerIds(toGray(ticks[|ticks| - 1].frame)), Stem);
      }
    }
  }

  /** Eleven failed reads in a row stop the loop, if nothing stopped it before. */
  lemma ElevenInARowStop<F, G>(ticks: seq<Tick<F>>, k: nat, toGray: F -> G, markerIds: G -> Option<seq<nat>>)
    requires k <= |ticks|
    requires TrailingFailures(ticks[..k]) > MaxFailedReads
    ensures FacecamRun(ticks, toGray, markerIds).status != Running
  {
    if FacecamRun(ticks[..k], toGray, markerIds).status == Running {
      CounterCountsConsecutiveFailures(ticks[..k], toGray, markerIds);
    } else {
      StoppedRunIsFinal(ticks, k, toGray, markerIds);
    }
  }

  /** Passes k-11 to k-1 of `ticks` are all failed reads. */
  predicate ElevenFailuresEndingAt<F>(ticks: seq<Tick<F>>, k: nat) {
    MaxFailedReads < k <= |ticks| && forall j :: k - MaxFailedReads - 1 <= j < k ==> ticks[j].ReadFailed?
  }

  /** A stop for failed reads comes only after eleven failed reads in a row. */
  lemma {:induction false} FailureStopNeedsElevenInARow<F, G>(ticks: seq<Tick<F>>, toGray: F -> G,
                                                             markerIds: G -> Option<seq<nat>>)
    requires FacecamRun(ticks, toGray, markerIds).status == TooManyReadFailures
    ensures exists k :: ElevenFailuresEndingAt(ticks, k)
  {
    var init := ticks[..|ticks| - 1];
    var last := ticks[|ticks| - 1];
    if FacecamRun(init, toGray, markerIds).status == TooManyReadFailures {
      FailureStopNeedsElevenInARow(init, toGray, markerIds);
      var k: nat :| ElevenFailuresEndingAt(init, k);
      assert forall j :: k - MaxFailedReads - 1 <= j < k ==> ticks[j] == init[j];
      assert ElevenFailuresEndingAt(ticks, k);
    } else if FacecamRun(init, toGray, markerIds).status == Running {
      CounterCountsConsecutiveFailures(init, toGray, markerIds);
      if last.Read? {
        assert false;
      }
      assert TrailingFailures(ticks) == MaxFailedReads + 1;
      assert ElevenFailuresEndingAt(ticks, |ticks|);
    } else {
      assert false;
    }
  }

  /**
   * Images are saved as `scans/cal_facecam_hd_000.png`, `..._001.png`, ...,
   * `saved_count` is their number, and each showed at least 4 markers.
   */
  lemma {:induction false} FacecamImagesNumbered<F, G>(ticks: seq<Tick<F>>, toGray: F -> G, markerIds: G -> Option<seq<nat>>)
    ensures var s := FacecamRun(ticks, toGray, markerIds);
      && |s.saved| == s.savedCount
      && forall i :: 0 <= i < |s.saved| ==> s.saved[i].name == IndexedName(Stem, i) && EnoughMarkers(markerIds(s.saved[i].data))
  {
    if ticks != [] {
      var init := ticks[..|ticks| - 1];
      FacecamImagesNumbered(init, toGray, markerIds);
      var last := ticks[|ticks| - 1];
      if last.Read? {
        HandleKeySaves(FacecamRun(init, toGray, markerIds).(failedReads := 0), last.key,
                       toGray(last.frame), markerIds(toGray(last.frame)), Stem);
      }
    }
  }

  /** How `capture_facecam_simple` ends. */
  datatype FacecamSession<G> = NeverOpened | Finished(state: SaveState<G>)

  /**
   * `capture_facecam_simple()`: after three failed attempts it returns
   * without capturing; otherwise the loop runs until q/Q or the eleventh
   * failed read in a row, and saves what the fold over the passes saves.
   */
  method CaptureFacecamSimple<F, G>(probe: nat -> Probe, ticks: seq<Tick<F>>, toGray: F -> G,
                                    markerIds: G -> Option<seq<nat>>)
    returns (session: FacecamSession<G>)
    ensures session.NeverOpened? <==> forall a :: 0 <= a < MaxAttempts ==> !probe(a).OpenedWithFrame?
    ensures session.Finished? ==> session.state == FacecamRun(ticks, toGray, markerIds)
  {
    var cap, _ := OpenWithRetry(probe);
    if cap.None? {
      return NeverOpened;
    }
    var savedCount := 0;
    var frameCount := 0;
    var saved: seq<Written<G>> := [];
    var status := Running;
    var i := 0;
    while i < |ticks|
      invariant 0 <= i <= |ticks|
      invariant FacecamRun(ticks[..i], toGray, markerIds) == SaveState(savedCount, frameCount, saved, Running)
    {
      var t := ticks[i];
      assert ticks[..i + 1][..i] == ticks[..i];
      i := i + 1;
      if t.ReadFailed? {
        frameCount := frameCount + 1;
        if frameCount > MaxFailedReads {
          status := TooManyReadFailures;
          StoppedRunIsFinal(ticks, i, toGray, markerIds);
          break;
        }
        continue;
      }
      frameCount := 0;
      var gray := toGray(t.frame);
      var ids := markerIds(gray);
      var key := t.key;
      if key == 's' as int || key == 'S' as int {
        if ids.Some? && |ids.value| >= MinMarkers {
          var filename := IndexedName(Stem, savedCount);
          saved := saved + [Written(filename, gray)];
          savedCount := savedCount + 1;
        }
      } else if key == 'q' as int || key == 'Q' as int {
        status := Quit;
        StoppedRunIsFinal(ticks, i, toGray, markerIds);
        break;
      }
    }
    if status == Running {
      assert ticks[..i] == ticks;
    }
    return Finished(SaveState(savedCount, frameCount, saved, status));
  }
}

=== FILE: capture_pairs.dfy ===
/**
 * opencv-sync/calibration/capture_pairs.py: opening two cameras with a
 * backend fallback, then the two-slot capture loop: key 1 grabs the FaceCam
 * frame, key 2 the ZED frame, and S saves them as a numbered pair.
 *
 * `cv2.VideoCapture(index, backend)` is a function-typed parameter; the
 * frames read and the keys pressed on each pass of the loop are an input
 * sequence; the files written are logged.
 */
module CalibrationCapturePairs {
  import opened Common

  // ---------------------------------------------------------------------------
  // Backend selection
  // ---------------------------------------------------------------------------

  datatype Backend = DShow | Msmf | AnyBackend

  /** `[cv2.CAP_DSHOW, cv2.CAP_MSMF, cv2.CAP_ANY]` */
  const Backends: seq<Backend> := [DShow, Msmf, AnyBackend]

  /** What `cv2.VideoCapture(index, backend)` does: raise, or return a capture, opened or not. */
  datatype OpenAttempt = Raised | NotOpened | Opened

  /** The capture object a variable holds after the loop: which backend made it, and whether it opened. */
  datatype Capture = Capture(backend: Backend, isOpen: bool)

  /** The first position in `backends` whose attempt opens, if any. */
  function FirstOpening(device: nat, backends: seq<Backend>, open: (nat, Backend) -> OpenAttempt): (r: Option<nat>)
    ensures r.Some? ==> r.value < |backends| && open(device, backends[r.value]).Opened?
    ensures r.Some? ==> forall j :: 0 <= j < r.value ==> !open(device, backends[j]).Opened?
    ensures r.None? ==> forall j :: 0 <= j < |backends| ==> !open(device, backends[j]).Opened?
  {
    if backends == [] then None
    else if open(device, backends[0]).Opened? then Some(0)
    else match FirstOpening(device, backends[1..], open)
      case None => None
      case Some(j) => Some(j + 1)
  }

  /**
   * The backend loop for one camera: a raised attempt moves on, an unopened
   * capture is kept but the loop moves on, the first opened one stops it.
   * The camera ends up open exactly when some backend opens it, and then it
   * is the first such backend in list order.
   */
  method SelectBackend(device: nat, open: (nat, Backend) -> OpenAttempt) returns (cap: Option<Capture>)
    ensures var first := FirstOpening(device, Backends, open);
      && (cap.Some? && cap.value.isOpen <==> first.Some?)
      && (first.Some? ==> cap.value.backend == Backends[first.value])
  {
    cap := None;
    var k := 0;
    while k < |Backends|
      invariant 0 <= k <= |Backends|
      invariant forall j :: 0 <= j < k ==> !open(device, Backends[j]).Opened?
      invariant cap.Some? ==> !cap.value.isOpen
    {
      var attempt := open(device, Backends[k]);
      if attempt.Raised? {
        k := k + 1;
        continue;
      }
      cap := Some(Capture(Backends[k], attempt.Opened?));
      if attempt.Opened? {
        return;
      }
      k := k + 1;
    }
  }

  // ---------------------------------------------------------------------------
  // The capture loop
  // ---------------------------------------------------------------------------

  /** One pass of the loop: the two reads (None when `ret` is false) and the key. */
  datatype PairTick<F> = PairTick(frame0: Option<F>, frame1: Option<F>, key: Key)

  /** `pair0_{n:03d}.png` and `pair1_{n:03d}.png`, in the working directory. */
  function PairFileName(camera: nat, n: nat): string
    requires camera < 2
  {
    (if camera == 0 then "pair0_" else "pair1_") + Pad3(n) + ".png"
  }

  const Scratch0 := "_tmp0.png"
  const Scratch1 := "_tmp1.png"

  /**
   * The loop's variables: the two slots `frame0`/`frame1`, `pair_count`,
   * the pairs saved and the scratch images written, and whether the loop
   * still runs.
   */
  datatype PairState<F> = PairState(slot0: Option<F>, slot1: Option<F>, pairCount: nat,
                                    saved: seq<SavedPair<F>>, scratch: seq<Written<F>>, status: Status)

  function InitialState<F>(): PairState<F> {
    PairState(None, None, 0, [], [], Running)
  }

  /** One pass of the loop; a stopped loop reads nothing more. */
  function PairStep<F>(s: PairState<F>, t: PairTick<F>): PairState<F> {
    if s.status != Running then s
    else if t.frame0.None? || t.frame1.None? then s.(status := ReadFailure)
    else
      var img0, img1 := t.frame0.value, t.frame1.value;
      if Pressed(t.key, '1') then s.(slot0 := Some(img0), scratch := s.scratch + [Written(Scratch0, img0)])
      else if Pressed(t.key, '2') then s.(slot1 := Some(img1), scratch := s.scratch + [Written(Scratch1, img1)])
      else if IsSave(t.key) then
        if s.slot0.Some? && s.slot1.Some? then
          var pair := SavedPair(Written(PairFileName(0, s.pairCount), s.slot0.value),
                                Written(PairFileName(1, s.pairCount), s.slot1.value));
          PairState(None, None, s.pairCount + 1, s.saved + [pair], s.scratch, Running)
        else s
      else if IsQuit(t.key) then s.(status := Quit)
      else s
  }

  /** The loop's variables after the passes in `ticks`. */
  function PairRun<F>(ticks: seq<PairTick<F>>): PairState<F> {
    if ticks == [] then InitialState() else PairStep(PairRun(ticks[..|ticks| - 1]), ticks[|ticks| - 1])
  }

  /** Once the loop has stopped, later passes change nothing. */
  lemma {:induction false} StoppedRunIsFinal<F>(ticks: seq<PairTick<F>>, k: nat)
    requires k <= |ticks|
    requires PairRun(ticks[..k]).status != Running
    ensures PairRun(ticks) == PairRun(ticks[..k])
    decreases |ticks|
  {
    if k < |ticks| {
      var init := ticks[..|ticks| - 1];
      assert init[..k] == ticks[..k];
      StoppedRunIsFinal(init, k);
    } else {
      assert ticks[..k] == ticks;
    }
  }

  /**
   * Key 1 replaces slot 0 with the current FaceCam frame and key 2 slot 1
   * with the current ZED frame, touching nothing else; S with both slots
   * full saves them under `pair_count`, counts the pair and empties both
   * slots; S with a slot empty changes nothing; a failed read or q/Q stops.
   */
  lemma PairStepEffects<F>(s: PairState<F>, t: PairTick<F>)
    requires s.status == Running
    ensures var r := PairStep(s, t);
      && (t.frame0.None? || t.frame1.None? ==> r == s.(status := ReadFailure))
      && (t.frame0.Some? && t.frame1.Some? ==>
            && (Pressed(t.key, '1') ==>
                  r.slot0 == t.frame0 && r.slot1 == s.slot1 && r.pairCount == s.pairCount
                  && r.saved == s.saved && r.status == Running)
            && (Pressed(t.key, '2') ==>
                  r.slot1 == t.frame1 && r.slot0 == s.slot0 && r.pairCount == s.pairCount
                  && r.saved == s.saved && r.status == Running)
            && (IsSave(t.key) && s.slot0.Some? && s.slot1.Some? ==>
                  && r.pairCount == s.pairCount + 1 && r.slot0.None? && r.slot1.None?
                  && r.saved == s.saved + [SavedPair(Written(PairFileName(0, s.pairCount), s.slot0.value),
                                                     Written(PairFileName(1, s.pairCount), s.slot1.value))])
            && (IsSave(t.key) && (s.slot0.None? || s.slot1.None?) ==> r == s)
            && (IsQuit(t.key) ==> r == s.(status := Quit)))
  {
  }

  /**
   * Saved pairs are numbered consecutively from 0, `pair_count` is their
   * number, and both files of a pair carry the same index.
   */
  lemma {:induction false} PairsNumberedFromZero<F>(ticks: seq<PairTick<F>>)
    ensures var s := PairRun(ticks);
      && |s.saved| == s.pairCount
      && forall i :: 0 <= i < |s.saved| ==>
           s.saved[i].first.name == PairFileName(0, i) && s.saved[i].second.name == PairFileName(1, i)
  {
    if ticks != [] {
      var before := PairRun(ticks[..|ticks| - 1]);
      PairsNumberedFromZero(ticks[..|ticks| - 1]);
      if before.status == Running {
        PairStepEffects(before, ticks[|ticks| - 1]);
      }
    }
  }

  /** No saved file is ever overwritten by a later save. */
  lemma PairNamesDistinct<F>(ticks: seq<PairTick<F>>, i: nat, j: nat)
    requires i < j < |PairRun(ticks).saved|
    ensures PairRun(ticks).saved[i].first.name != PairRun(ticks).saved[j].first.name
    ensures PairRun(ticks).saved[i].second.name != PairRun(ticks).saved[j].second.name
  {
    PairsNumberedFromZero(ticks);
    if PairFileName(0, i) == PairFileName(0, j) {
      IndexedNameInjective("pair0_", ".png", i, j);
    }
    if PairFileName(1, i) == PairFileName(1, j) {
      IndexedNameInjective("pair1_", ".png", i, j);
    }
  }

  /**
   * The `while True` loop: a failed read on either camera ends it, 1 and 2
   * grab a frame, S saves a complete pair and clears both slots, q/Q ends it.
   */
  method RunPairLoop<F>(ticks: seq<PairTick<F>>) returns (state: PairState<F>)
    ensures state == PairRun(ticks)
  {
    var pairCount := 0;
    var frame0: Option<F> := None;
    var frame1: Option<F> := None;
    var saved: seq<SavedPair<F>> := [];
    var scratch: seq<Written<F>> := [];
    var i := 0;
    while i < |ticks|
      invariant 0 <= i <= |ticks|
      invariant PairRun(ticks[..i]) == PairState(frame0, frame1, pairCount, saved, scratch, Running)
    {
      var t := ticks[i];
      assert ticks[..i + 1][..i] == ticks[..i];
      if t.frame0.None? || t.frame1.None? {
        StoppedRunIsFinal(ticks, i + 1);
        return PairState(frame0, frame1, pairCount, saved, scratch, ReadFailure);
      }
      var img0, img1 := t.frame0.value, t.frame1.value;
      var key := t.key;
      if key == '1' as int {
        frame0 := Some(img0);
        scratch := scratch + [Written(Scratch0, img0)];
      } else if key == '2' as int {
        frame1 := Some(img1);
        scratch := scratch + [Written(Scratch1, img1)];
      } else if key == 's' as int || key == 'S' as int {
        if frame0.Some? && frame1.Some? {
          var filename0 := PairFileName(0, pairCount);
          var filename1 := PairFileName(1, pairCount);
          saved := saved + [SavedPair(Written(filename0, frame0.value), Written(filename1, frame1.value))];
          pairCount := pairCount + 1;
          frame0 := None;
          frame1 := None;
        }
      } else if key == 'q' as int || key == 'Q' as int {
        StoppedRunIsFinal(ticks, i + 1);
        return PairState(frame0, frame1, pairCount, saved, scratch, Quit);
      }
      i := i + 1;
    }
    assert ticks[..i] == ticks;
    return PairState(frame0, frame1, pairCount, saved, scratch, Running);
  }

  /** What `capture_stereo_pairs` leaves behind. */
  datatype Session<F> = NotStarted | Finished(state: PairState<F>)

  /**
   * `capture_stereo_pairs()`: both cameras go through the backend loop;
   * if either is not open the function returns before the loop; otherwise
   * the loop runs over the passes until a failed read or q/Q, and what it
   * saved is what the fold over the passes saves.
   */
  method CaptureStereoPairs<F>(open: (nat, Backend) -> OpenAttempt, ticks: seq<PairTick<F>>) returns (session: Session<F>)
    ensures session.NotStarted? <==>
      FirstOpening(0, Backends, open).None? || FirstOpening(3, Backends, open).None?
    ensures session.Finished? ==> session.state == PairRun(ticks)
  {
    var cap0 := SelectBackend(0, open);
    var cap1 := SelectBackend(3, open);
    if cap0.None? || !cap0.value.isOpen {
      return NotStarted;
    }
    if cap1.None? || !cap1.value.isOpen {
      return NotStarted;
    }
    var state := RunPairLoop(ticks);
    return Finished(state);
  }
}

=== FILE: capture_stereo_pairs.dfy ===
/**
 * opencv-sync/capture_stereo_pairs.py: FaceCam (device 1) and ZED through
 * OBS (device 3) read side by side; S saves both grayscale frames under one
 * shared index, but only when both show at least 4 ArUco markers.
 *
 * Opening a device, `cv2.cvtColor` and `ArucoDetector.detectMarkers` are
 * function-typed parameters; the frames read and the keys pressed on each
 * pass are an input sequence; files written and devices released are logged.
 */
module CaptureStereoPairs {
  import opened Common
  import MatchFacecamToZed

  const FaceCamDevice := 1
  const ZedDevice := 3

  /** One pass of the loop: the two reads (None when `ret` is false) and the key. */
  datatype StereoTick<F> = StereoTick(frameF: Option<F>, frameZ: Option<F>, key: Key)

  /** `os.path.join("scans", f"pair{camera}_{n:03d}.png")` */
  function StereoFileName(camera: nat, n: nat): string
    requires camera < 2
  {
    (if camera == 0 then "scans/pair0_" else "scans/pair1_") + Pad3(n) + ".png"
  }

  /** The loop's variables: `saved_count`, the pairs written, and whether the loop still runs. */
  datatype StereoState<G> = StereoState(savedCount: nat, saved: seq<SavedPair<G>>, status: Status)

  /** One pass of the loop, given the grayscale conversion and the marker detector. */
  function StereoStep<F, G>(s: StereoState<G>, t: StereoTick<F>, toGray: F -> G, markerIds: G -> Option<seq<nat>>)
    : StereoState<G>
  {
    if s.status != Running then s
    else if t.frameF.None? || t.frameZ.None? then s.(status := ReadFailure)
    else
      var grayF, grayZ := toGray(t.frameF.value), toGray(t.frameZ.value);
      if IsSave(t.key) then
        if EnoughMarkers(markerIds(grayF)) && EnoughMarkers(markerIds(grayZ)) then
          var pair := SavedPair(Written(StereoFileName(0, s.savedCount), grayF),
                                Written(StereoFileName(1, s.savedCount), grayZ));
          StereoState(s.savedCount + 1, s.saved + [pair], Running)
        else s
      else if IsQuit(t.key) then s.(status := Quit)
      else s
  }

  /** The loop's variables after the passes in `ticks`. */
  function StereoRun<F, G>(ticks: seq<StereoTick<F>>, toGray: F -> G, markerIds: G -> Option<seq<nat>>): StereoState<G> {
    if ticks == [] then StereoState(0, [], Running)
    else StereoStep(StereoRun(ticks[..|ticks| - 1], toGray, markerIds), ticks[|ticks| - 1], toGray, markerIds)
  }

  /** Once the loop has stopped, later passes change nothing. */
  lemma {:induction false} StoppedRunIsFinal<F, G>(ticks: seq<StereoTick<F>>, k: nat, toGray: F -> G,
                                                  markerIds: G -> Option<seq<nat>>)
    requires k <= |ticks|
    requires StereoRun(ticks[..k], toGray, markerIds).status != Running
    ensures StereoRun(ticks, toGray, markerIds) == StereoRun(ticks[..k], toGray, markerIds)
    decreases |ticks|
  {
    if k < |ticks| {
      var init := ticks[..|ticks| - 1];
      assert init[..k] == ticks[..k];
      StoppedRunIsFinal(init, k, toGray, markerIds);
    } else {
      assert ticks[..k] == ticks;
    }
  }

  /**
   * S saves exactly when both frames show at least 4 markers (no ids counts
   * as 0): then both grayscale frames are written under the current count,
   * which rises by one; otherwise nothing is written and the count stays.
   */
  lemma SaveGate<F, G>(s: StereoState<G>, t: StereoTick<F>, toGray: F -> G, markerIds: G -> Option<seq<nat>>)
    requires s.status == Running && t.frameF.Some? && t.frameZ.Some? && IsSave(t.key)
    ensures var r, gF, gZ := StereoStep(s, t, toGray, markerIds), toGray(t.frameF.value), toGray(t.frameZ.value);
      && r.status == Running
      && (r.savedCount == s.savedCount + 1 <==> MarkerCount(markerIds(gF)) >= MinMarkers && MarkerCount(markerIds(gZ)) >= MinMarkers)
      && (r.savedCount == s.savedCount + 1 ==>
            r.saved == s.saved + [SavedPair(Written(StereoFileName(0, s.savedCount), gF),
                                            Written(StereoFileName(1, s.savedCount), gZ))])
      && (r.savedCount != s.savedCount + 1 ==> r == s)
  {
  }

  /**
   * Saved pairs are numbered consecutively from 0 and `saved_count` is their
   * number; each pair's two files share the index, and every saved image
   * showed at least 4 markers.
   */
  lemma {:induction false} StereoPairsNumbered<F, G>(ticks: seq<StereoTick<F>>, toGray: F -> G, markerIds: G -> Option<seq<nat>>)
    ensures var s := StereoRun(ticks, toGray, markerIds);
      && |s.saved| == s.savedCount
      && forall i :: 0 <= i < |s.saved| ==>
           && s.saved[i].first.name == StereoFileName(0, i)
           && s.saved[i].second.name == StereoFileName(1, i)
           && EnoughMarkers(markerIds(s.saved[i].first.data))
           && EnoughMarkers(markerIds(s.saved[i].second.data))
  {
    if ticks != [] {
      StereoPairsNumbered(ticks[..|ticks| - 1], toGray, markerIds);
    }
  }

  /**
   * The pairs this script saves are exactly the pairs the correspondence
   * builder finds: the partner it derives from each saved FaceCam file is
   * the ZED file saved with it.
   */
  lemma SavedPairsArePartners<F, G>(ticks: seq<StereoTick<F>>, toGray: F -> G, markerIds: G -> Option<seq<nat>>, i: nat)
    requires i < |StereoRun(ticks, toGray, markerIds).saved|
    ensures var p := StereoRun(ticks, toGray, markerIds).saved[i];
      MatchFacecamToZed.PartnerName(p.first.name) == p.second.name
  {
    StereoPairsNumbered(ticks, toGray, markerIds);
    MatchFacecamToZed.PartnerOfPairFile(Pad3(i));
    assert StereoFileName(0, i) == "scans/pair0_" + Pad3(i) + ".png";
  }

  /** How `capture_stereo_pairs` ends. */
  datatype StereoSession<G> = FaceCamNotOpened | ZedNotOpened | Finished(state: StereoState<G>)

  /**
   * `capture_stereo_pairs()`: if FaceCam does not open it returns at once;
   * if ZED does not open, FaceCam is released and it returns; otherwise the
   * loop runs until a failed read or q/Q, saves what the fold saves, and
   * both devices are released.
   */
  method CaptureStereoPairs<F, G>(isOpened: nat -> bool, ticks: seq<StereoTick<F>>, toGray: F -> G,
                                  markerIds: G -> Option<seq<nat>>)
    returns (session: StereoSession<G>, released: seq<nat>)
    ensures session.FaceCamNotOpened? <==> !isOpened(FaceCamDevice)
    ensures session.ZedNotOpened? <==> isOpened(FaceCamDevice) && !isOpened(ZedDevice)
    ensures session.Finished? ==> session.state == StereoRun(ticks, toGray, markerIds)
    ensures released == match session
                        case FaceCamNotOpened => []
                        case ZedNotOpened => [FaceCamDevice]
                        case Finished(_) => [FaceCamDevice, ZedDevice]
  {
    if !isOpened(FaceCamDevice) {
      return FaceCamNotOpened, [];
    }
    if !isOpened(ZedDevice) {
      return ZedNotOpened, [FaceCamDevice];
    }
    var savedCount := 0;
    var saved: seq<SavedPair<G>> := [];
    var status := Running;
    var i := 0;
    while i < |ticks|
      invariant 0 <= i <= |ticks|
      invariant StereoRun(ticks[..i], toGray, markerIds) == StereoState(savedCount, saved, Running)
    {
      var t := ticks[i];
      assert ticks[..i + 1][..i] == ticks[..i];
      if t.frameF.None? || t.frameZ.None? {
        status := ReadFailure;
        StoppedRunIsFinal(ticks, i + 1, toGray, markerIds);
        break;
      }
      var grayF := toGray(t.frameF.value);
      var grayZ := toGray(t.frameZ.value);
      var idsF := markerIds(grayF);
      var idsZ := markerIds(grayZ);
      var markersF := if idsF.Some? then |idsF.value| else 0;
      var markersZ := if idsZ.Some? then |idsZ.value| else 0;
      var key := t.key;
      if key == 's' as int || key == 'S' as int {
        if markersF >= MinMarkers && markersZ >= MinMarkers {
          var filenameF := StereoFileName(0, savedCount);
          var filenameZ := StereoFileName(1, savedCount);
          saved := saved + [SavedPair(Written(filenameF, grayF), Written(filenameZ, grayZ))];
          savedCount := savedCount + 1;
        }
      } else if key == 'q' as int || key == 'Q' as int {
        status := Quit;
        StoppedRunIsFinal(ticks, i + 1, toGray, markerIds);
        break;
      }
      i := i + 1;
    }
    if status == Running {
      assert ticks[..i] == ticks;
    }
    return Finished(StereoState(savedCount, saved, status)), [FaceCamDevice, ZedDevice];
  }
}

=== FILE: capture_zed_obs_direct.dfy ===
/**
 * opencv-sync/capture_zed_obs_direct.py: the ZED feed through the OBS
 * virtual camera (device 3, DirectShow), a resolution negotiation that stops
 * at the first improvement, then the capture loop on whole frames.
 *
 * Opening the device, the device's reported size per requested target,
 * `cv2.cvtColor` and `ArucoDetector.detectMarkers` are function-typed
 * parameters; the reads and keys of each pass are an input sequence.
 */
module CaptureZedObsDirect {
  import opened Common
  import opened Resolution
  import opened SaveLoop

  const CameraIndex := 3
  const Stem := "cal_zed_"

  const Resolutions: seq<Size> := [Size(1920, 1080), Size(1280, 720), Size(1024, 768)]

  /** The position of the first reported size strictly larger than `start` in both dimensions, if any. */
  function FirstImprovement(start: Size, reports: seq<Size>): (r: Option<nat>)
    ensures r.Some? ==> r.value < |reports| && StrictlyLarger(reports[r.value], start)
    ensures r.Some? ==> forall j :: 0 <= j < r.value ==> !StrictlyLarger(reports[j], start)
    ensures r.None? ==> forall j :: 0 <= j < |reports| ==> !StrictlyLarger(reports[j], start)
  {
    if reports == [] then None
    else if StrictlyLarger(reports[0], start) then Some(0)
    else match FirstImprovement(start, reports[1..])
      case None => None
      case Some(j) => Some(j + 1)
  }

  /** `(width, height)` after the loop: the first improvement, or the start when there is none. */
  function Negotiated(start: Size, reports: seq<Size>): Size {
    match FirstImprovement(start, reports)
    case None => start
    case Some(k) => reports[k]
  }

  /**
   * The negotiated size is never smaller than the start in either dimension;
   * it differs from the start exactly when some target improved on it in
   * both, and then it is strictly larger in both.
   */
  lemma NegotiatedNeverShrinks(start: Size, reports: seq<Size>)
    ensures AtLeast(Negotiated(start, reports), start)
    ensures Negotiated(start, reports) != start <==> exists j :: 0 <= j < |reports| && StrictlyLarger(reports[j], start)
    ensures Negotiated(start, reports) != start ==> StrictlyLarger(Negotiated(start, reports), start)
  {
    var r := FirstImprovement(start, reports);
    if r.Some? {
      assert StrictlyLarger(reports[r.value], start);
    }
  }

  /**
   * The resolution loop: targets are requested in order; a target whose
   * reported size is not strictly larger in both dimensions leaves width and
   * height as they were, and the first that is adopted ends the loop.
   */
  method NegotiateResolution(start: Size, report: Size -> Size) returns (size: Size, requested: seq<Size>)
    ensures size == Negotiated(start, Reports(Resolutions, report))
    ensures requested == match FirstImprovement(start, Reports(Resolutions, report))
                         case Some(k) => Resolutions[..k + 1]
                         case None => Resolutions
  {
    ghost var reports := Reports(Resolutions, report);
    size := start;
    requested := [];
    for k := 0 to |Resolutions|
      invariant requested == Resolutions[..k]
      invariant size == start
      invariant forall j :: 0 <= j < k ==> !StrictlyLarger(reports[j], start)
    {
      var target := Resolutions[k];
      requested := requested + [target];
      var test := report(target);
      if test.width > size.width && test.height > size.height {
        size := test;
        return;
      }
    }
  }

  /** How `capture_zed_obs_direct` ends. */
  datatype ObsSession<G> = NotOpened | Finished(size: Size, requested: seq<Size>, state: SaveState<G>)

  /**
   * `capture_zed_obs_direct()`: if the virtual camera does not open it
   * returns before negotiating; otherwise it negotiates the resolution and
   * runs the loop on whole frames, saving `scans/cal_zed_NNN.png` images.
   */
  method CaptureZedObsDirect<F, G>(isOpened: bool, start: Size, report: Size -> Size, ticks: seq<Tick<F>>,
                                   toGray: F -> G, markerIds: G -> Option<seq<nat>>)
    returns (session: ObsSession<G>)
    ensures session.NotOpened? <==> !isOpened
    ensures session.Finished? ==>
      && session.size == Negotiated(start, Reports(Resolutions, report))
      && session.state == BreakRun(ticks, toGray, markerIds, Stem)
  {
    if !isOpened {
      return NotOpened;
    }
    var size, requested := NegotiateResolution(start, report);
    var state := RunSaveLoop(ticks, toGray, markerIds, Stem);
    return Finished(size, requested, state);
  }
}

=== FILE: capture_zed_simple.dfy ===
/**
 * opencv-sync/capture_zed_simple.py: the ZED through Media Foundation, with
 * a failed-read counter that is never reset, markers looked for in the left
 * half of the side-by-side frame.
 *
 * Opening the device, `cv2.cvtColor` and `ArucoDetector.detectMarkers` are
 * function-typed parameters; the reads and keys of each pass are an input
 * sequence; the images written are logged.
 */
module CaptureZedSimple {
  import opened Common
  import opened Frames

  /** The loop stops once the counter exceeds this. */
  const MaxFailedReads := 10
  const Stem := "cal_zed_"

  /**
   * One pass of the loop; a stopped loop reads nothing more. Failed reads are
   * counted and never forgotten; a good frame is cropped to its left half.
   */
  function ZedStep<Px, G>(s: SaveState<G>, t: Tick<Image<Px>>, toGray: Image<Px> -> G,
                          markerIds: G -> Option<seq<nat>>): SaveState<G>
  {
    if s.status != Running then s
    else
      match t
      case ReadFailed =>
        var failed := s.failedReads + 1;
        s.(failedReads := failed, status := if failed > MaxFailedReads then TooManyReadFailures else Running)
      case Read(frame, key) =>
        var gray := toGray(LeftHalf(frame));
        HandleKey(s, key, gray, markerIds(gray), Stem)
  }

  /** The loop's variables after the passes in `ticks`. */
  function ZedRun<Px, G>(ticks: seq<Tick<Image<Px>>>, toGray: Image<Px> -> G, markerIds: G -> Option<seq<nat>>): SaveState<G> {
    if ticks == [] then SaveState(0, 0, [], Running)
    else ZedStep(ZedRun(ticks[..|ticks| - 1], toGray, markerIds), ticks[|ticks| - 1], toGray, markerIds)
  }

  /** Once the loop has stopped, later passes change nothing. */
  lemma {:induction false} StoppedRunIsFinal<Px, G>(ticks: seq<Tick<Image<Px>>>, k: nat, toGray: Image<Px> -> G,
                                                   markerIds: G -> Option<seq<nat>>)
    requires k <= |ticks|
    requires ZedRun(ticks[..k], toGray, markerIds).status != Running
    ensures ZedRun(ticks, toGray, markerIds) == ZedRun(ticks[..k], toGray, markerIds)
    decreases |ticks|
  {
    if k < |ticks| {
      var init := ticks[..|ticks| - 1];
      assert init[..k] == ticks[..k];
      StoppedRunIsFinal(init, k, toGray, markerIds);
    } else {
      assert ticks[..k] == ticks;
    }
  }

  /** The number of failed reads anywhere in `ticks`. */
  function Failures<F>(ticks: seq<Tick<F>>): (n: nat)
    ensures n <= |ticks|
    ensures n == 0 <==> forall j :: 0 <= j < |ticks| ==> ticks[j].Read?
  {
    if ticks == [] then 0
    else Failures(ticks[..|ticks| - 1]) + (if ticks[|ticks| - 1].ReadFailed? then 1 else 0)
  }

  /**
   * While the loop runs, the counter is the number of failed reads so far,
   * good frames in between notwithstanding, and it is at most 10.
   */
  lemma {:induction false} CounterCountsAllFailures<Px, G>(ticks: seq<Tick<Image<Px>>>, toGray: Image<Px> -> G,
                                                          markerIds: G -> Option<seq<nat>>)
    requires ZedRun(ticks, toGray, markerIds).status == Running
    ensures ZedRun(ticks, toGray, markerIds).failedReads == Failures(ticks) <= MaxFailedReads
  {
    if ticks != [] {
      var init := ticks[..|ticks| - 1];
      CounterCountsAllFailures(init, toGray, markerIds);
      var last := ticks[|ticks| - 1];
      if last.Read? {
        var gray := toGray(LeftHalf(last.frame));
        HandleKeySaves(ZedRun(init, toGray, markerIds), last.key, gray, markerIds(gray), Stem);
      }
    }
  }

  /** The eleventh failed read overall stops the loop, if nothing stopped it before. */
  lemma EleventhFailureStops<Px, G>(ticks: seq<Tick<Image<Px>>>, toGray: Image<Px> -> G, markerIds: G -> Option<seq<nat>>)
    requires Failures(ticks) > MaxFailedReads
    ensures ZedRun(ticks, toGray, markerIds).status != Running
  {
    if ZedRun(ticks, toGray, markerIds).status == Running {
      CounterCountsAllFailures(ticks, toGray, markerIds);
    }
  }

  /** A stop for failed reads comes only once eleven reads have failed. */
  lemma {:induction false} FailureStopNeedsElevenFailures<Px, G>(ticks: seq<Tick<Image<Px>>>, toGray: Image<Px> -> G,
                                                               markerIds: G -> Option<seq<nat>>)
    requires ZedRun(ticks, toGray, markerIds).status == TooManyReadFailures
    ensures Failures(ticks) > MaxFailedReads
  {
    var init := ticks[..|ticks| - 1];
    var last := ticks[|ticks| - 1];
    if ZedRun(init, toGray, markerIds).status == TooManyReadFailures {
      FailureStopNeedsElevenFailures(init, toGray, markerIds);
    } else if ZedRun(init, toGray, markerIds).status == Running {
      CounterCountsAllFailures(init, toGray, markerIds);
      if last.Read? {
        var gray := toGray(LeftHalf(last.frame));
        HandleKeySaves(ZedRun(init, toGray, markerIds), last.key, gray, markerIds(gray), Stem);
      }
    }
  }

  /** `data` is the grayscale left half of some frame read in `ticks`. */
  ghost predicate CroppedFromRead<Px, G>(data: G, ticks: seq<Tick<Image<Px>>>, toGray: Image<Px> -> G) {
    exists j :: 0 <= j < |ticks| && ticks[j].Read? && data == toGray(LeftHalf(ticks[j].frame))
  }

  /**
   * Images are saved as `scans/cal_zed_000.png`, `..._001.png`, ...,
   * `saved_count` is their number, and each is the grayscale left half of a
   * frame in which at least 4 markers were found.
   */
  lemma {:induction false} ZedImagesNumbered<Px, G>(ticks: seq<Tick<Image<Px>>>, toGray: Image<Px> -> G,
                                                   markerIds: G -> Option<seq<nat>>)
    ensures var s := ZedRun(ticks, toGray, markerIds);
      && |s.saved| == s.savedCount
      && forall i :: 0 <= i < |s.saved| ==>
           && s.saved[i].name == IndexedName(Stem, i)
           && EnoughMarkers(markerIds(s.saved[i].data))
           && CroppedFromRead(s.saved[i].data, ticks, toGray)
  {
    if ticks != [] {
      var init := ticks[..|ticks| - 1];
      ZedImagesNumbered(init, toGray, markerIds);
      var last := ticks[|ticks| - 1];
      var before := ZedRun(init, toGray, markerIds);
      forall i | 0 <= i < |before.saved|
        ensures CroppedFromRead(before.saved[i].data, ticks, toGray)
      {
        assert CroppedFromRead(before.saved[i].data, init, toGray);
        var j :| 0 <= j < |init| && init[j].Read? && before.saved[i].data == toGray(LeftHalf(init[j].frame));
        assert ticks[j] == init[j];
      }
      if last.Read? {
        var gray := toGray(LeftHalf(last.frame));
        HandleKeySaves(before, last.key, gray, markerIds(gray), Stem);
        assert ticks[|ticks| - 1] == last;
        assert CroppedFromRead(gray, ticks, toGray);
      }
    }
  }

  /** How `capture_zed_simple` ends. */
  datatype ZedSession<G> = NotOpened | Finished(state: SaveState<G>)

  /**
   * `capture_zed_simple()`: if the device does not open it returns; otherwise
   * the loop runs until q/Q or the eleventh failed read overall, and saves
   * what the fold over the passes saves.
   */
  method CaptureZedSimple<Px, G>(isOpened: bool, ticks: seq<Tick<Image<Px>>>, toGray: Image<Px> -> G,
                                 markerIds: G -> Option<seq<nat>>)
    returns (session: ZedSession<G>)
    ensures session.NotOpened? <==> !isOpened
    ensures session.Finished? ==> session.state == ZedRun(ticks, toGray, markerIds)
  {
    if !isOpened {
      return NotOpened;
    }
    var savedCount := 0;
    var frameCount := 0;
    var saved: seq<Written<G>> := [];
    var status := Running;
    var i := 0;
    while i < |ticks|
      invariant 0 <= i <= |ticks|
      invariant ZedRun(ticks[..i], toGray, markerIds) == SaveState(savedCount, frameCount, saved, Running)
    {
      var t := ticks[i];
      assert ticks[..i + 1][..i] == ticks[..i];
      i := i + 1;
      if t.ReadFailed? {
        frameCount := frameCount + 1;
        if frameCount > MaxFailedReads {
          status := TooManyReadFailures;
          StoppedRunIsFinal(ticks, i, toGray, markerIds);
          break;
        }
        continue;
      }
      var leftHalf := LeftHalf(t.frame);
      var gray := toGray(leftHalf);
      var ids := markerIds(gray);
      var key := t.key;
      if key == 's' as int || key == 'S' as int {
        if ids.Some? && |ids.value| >= MinMarkers {
          var filename := IndexedName(Stem, savedCount);
          saved := saved + [Written(filename, gray)];
          savedCount := savedCount + 1;
        }
      } else if key == 'q' as int || key == 'Q' as int {
        status := Quit;
        StoppedRunIsFinal(ticks, i, toGray, markerIds);
        break;
      }
    }
    if status == Running {
      assert ticks[..i] == ticks;
    }
    return Finished(SaveState(savedCount, frameCount, saved, status));
  }
}

=== FILE: capture_zed_try_direct.dfy ===
/**
 * opencv-sync/capture_zed_try_direct.py: six (device, backend) attempts in
 * list order until one opens and delivers a frame, an attempt to raise the
 * resolution through four targets, then the capture loop on the left half
 * of each frame.
 *
 * Each attempt's outcome, the device's reported size per requested target,
 * `cv2.cvtColor` and `ArucoDetector.detectMarkers` are function-typed
 * parameters; the reads and keys of each pass are an input sequence.
 */
module CaptureZedTryDirect {
  import opened Common
  import opened Frames
  import opened Resolution
  import opened SaveLoop
  import CalibrationCapturePairs

  type Backend = CalibrationCapturePairs.Backend

  // ---------------------------------------------------------------------------
  // Attempt selection
  // ---------------------------------------------------------------------------

  /** `(camera_index, backend)` of one entry of `attempts`. */
  datatype Attempt = Attempt(index: nat, backend: Backend)

  const Attempts: seq<Attempt> := [
    Attempt(2, CalibrationCapturePairs.Msmf),
    Attempt(2, CalibrationCapturePairs.DShow),
    Attempt(2, CalibrationCapturePairs.AnyBackend),
    Attempt(0, CalibrationCapturePairs.Msmf),
    Attempt(0, CalibrationCapturePairs.DShow),
    Attempt(1, CalibrationCapturePairs.Msmf)
  ]

  /** One attempt: the device did not open, opened but gave no frame, or gave a frame of this size. */
  datatype Probe = FailedToOpen | OpenedNoFrame | FirstFrame(size: Size)

  /** The first position in `attempts` whose device opens and delivers a frame, if any. */
  function FirstSuccess(attempts: seq<Attempt>, probe: Attempt -> Probe): (r: Option<nat>)
    ensures r.Some? ==> r.value < |attempts| && probe(attempts[r.value]).FirstFrame?
    ensures r.Some? ==> forall j :: 0 <= j < r.value ==> !probe(attempts[j]).FirstFrame?
    ensures r.None? ==> forall j :: 0 <= j < |attempts| ==> !probe(attempts[j]).FirstFrame?
  {
    if attempts == [] then None
    else if probe(attempts[0]).FirstFrame? then Some(0)
    else match FirstSuccess(attempts[1..], probe)
      case None => None
      case Some(j) => Some(j + 1)
  }

  /**
   * The attempt loop (run on `Attempts`): attempts are tried in list order, each failed one is
   * released, and the first that opens and reads a frame ends the loop, so
   * later attempts are never tried.
   */
  method SelectAttempt(attempts: seq<Attempt>, probe: Attempt -> Probe)
    returns (chosen: Option<nat>, tried: seq<Attempt>, released: seq<Attempt>)
    ensures chosen == FirstSuccess(attempts, probe)
    ensures tried == if chosen.Some? then attempts[..chosen.value + 1] else attempts
    ensures released == if chosen.Some? then attempts[..chosen.value] else attempts
  {
    chosen := None;
    tried := [];
    released := [];
    for k := 0 to |attempts|
      invariant tried == released == attempts[..k]
      invariant forall j :: 0 <= j < k ==> !probe(attempts[j]).FirstFrame?
    {
      var attempt := attempts[k];
      tried := tried + [attempt];
      if probe(attempt).FirstFrame? {
        chosen := Some(k);
        return;
      }
      released := released + [attempt];
    }
  }

  // ---------------------------------------------------------------------------
  // Resolution negotiation
  // ---------------------------------------------------------------------------

  const Resolutions: seq<Size> := [Size(1920, 1080), Size(1280, 720), Size(1024, 768), Size(800, 600)]

  /** One target: the reported size replaces the current one only if it is strictly larger in both dimensions. */
  function Upgrade(current: Size, reported: Size): Size {
    if StrictlyLarger(reported, current) then reported else current
  }

  /** `best_resolution` after the loop has seen `reports`, starting from the first frame's size. */
  function BestOf(start: Size, reports: seq<Size>): Size {
    if reports == [] then start else Upgrade(BestOf(start, reports[..|reports| - 1]), reports[|reports| - 1])
  }

  /**
   * Negotiation never shrinks the size: the size after more targets is at
   * least the size after fewer, in both dimensions.
   */
  lemma {:induction false} NegotiationNeverShrinks(start: Size, reports: seq<Size>, j: nat, k: nat)
    requires j <= k <= |reports|
    ensures AtLeast(BestOf(start, reports[..k]), BestOf(start, reports[..j]))
    decreases k
  {
    if j < k {
      NegotiationNeverShrinks(start, reports, j, k - 1);
      assert reports[..k][..k - 1] == reports[..k - 1];
    } else {
      assert reports[..k] == reports[..j];
    }
  }

  /**
   * The best size is the start or one of the reported sizes, it is at least
   * the start, and no reported size beats it in both dimensions.
   */
  lemma {:induction false} BestIsUnbeaten(start: Size, reports: seq<Size>)
    ensures var best := BestOf(start, reports);
      && (best == start || best in reports)
      && AtLeast(best, start)
      && forall i :: 0 <= i < |reports| ==> !StrictlyLarger(reports[i], best)
  {
    if reports != [] {
      var init := reports[..|reports| - 1];
      BestIsUnbeaten(start, init);
      var before := BestOf(start, init);
      var best := BestOf(start, reports);
      assert AtLeast(best, before);
      forall i | 0 <= i < |reports|
        ensures !StrictlyLarger(reports[i], best)
      {
        if i < |init| {
          assert reports[i] == init[i];
        }
      }
    }
  }

  /**
   * The resolution loop as written: every target is requested in turn (no
   * early exit), `best_resolution` follows the upgrades, and the final size
   * is re-read from the device, which was last asked for the last target.
   */
  method NegotiateResolution(start: Size, report: Size -> Size)
    returns (best: Size, actual: Size, requested: seq<Size>)
    ensures requested == Resolutions
    ensures best == BestOf(start, Reports(Resolutions, report))
    ensures actual == report(Resolutions[|Resolutions| - 1])
  {
    var reports := Reports(Resolutions, report);
    actual := start;
    best := start;
    requested := [];
    for k := 0 to |Resolutions|
      invariant requested == Resolutions[..k]
      invariant best == actual == BestOf(start, reports[..k])
    {
      var target := Resolutions[k];
      requested := requested + [target];
      var test := report(target);
      assert reports[..k + 1][..k] == reports[..k];
      if test.width > actual.width && test.height > actual.height {
        best := test;
        actual := test;
      }
    }
    assert reports[..|Resolutions|] == reports;
    actual := report(requested[|requested| - 1]);
  }

  /** A device that delivers every size it is asked for. */
  function Honour(target: Size): Size {
    target
  }

  /**
   * With a device that delivers each target it is asked for, a ZED first
   * seen at 1280x720 negotiates a best size of 1920x1080 but is left at
   * 800x600, smaller than where it started in both dimensions.
   */
  lemma BestResolutionNotApplied()
    ensures BestOf(Size(1280, 720), Reports(Resolutions, Honour)) == Size(1920, 1080)
    ensures Honour(Resolutions[|Resolutions| - 1]) == Size(800, 600)
    ensures StrictlyLarger(Size(1280, 720), Honour(Resolutions[|Resolutions| - 1]))
  {
    var start := Size(1280, 720);
    var reports := Reports(Resolutions, Honour);
    assert reports == Resolutions;
    assert reports[..1][..0] == [];
    assert BestOf(start, reports[..1]) == Size(1920, 1080);
    assert reports[..2][..1] == reports[..1];
    assert BestOf(start, reports[..2]) == Size(1920, 1080);
    assert reports[..3][..2] == reports[..2];
    assert BestOf(start, reports[..3]) == Size(1920, 1080);
    assert reports[..4][..3] == reports[..3];
    assert reports[..4] == reports;
  }

  /**
   * The resolution loop with the best size applied: after the loop the size
   * that won is requested once more, the target that produced it when some
   * target improved on the start, and the start itself otherwise. The device
   * then ends at the best size whenever a target beat the start, and at what
   * it gives for the start otherwise, which is the start itself for a device
   * that keeps a size it delivered before; either way it does not end below
   * where it began.
   */
  method NegotiateAndApply(start: Size, report: Size -> Size)
    returns (best: Size, actual: Size, requested: seq<Size>)
    ensures best == BestOf(start, Reports(Resolutions, report))
    ensures AtLeast(best, start)
    ensures |requested| == |Resolutions| + 1 && requested[..|Resolutions|] == Resolutions
    ensures actual == report(requested[|Resolutions|])
    ensures best != start ==> actual == best && StrictlyLarger(actual, start)
    ensures best == start ==> requested[|Resolutions|] == start
    ensures report(start) == start ==> actual == best && AtLeast(actual, start)
  {
    var reports := Reports(Resolutions, report);
    best := start;
    var bestTarget: Option<Size> := None;
    requested := [];
    for k := 0 to |Resolutions|
      invariant requested == Resolutions[..k]
      invariant best == BestOf(start, reports[..k])
      invariant bestTarget.None? ==> best == start
      invariant bestTarget.Some? ==> report(bestTarget.value) == best && StrictlyLarger(best, start)
    {
      var target := Resolutions[k];
      requested := requested + [target];
      var test := report(target);
      assert reports[..k + 1][..k] == reports[..k];
      if test.width > best.width && test.height > best.height {
        best := test;
        bestTarget := Some(target);
      }
    }
    assert reports[..|Resolutions|] == reports;
    BestIsUnbeaten(start, reports);
    var final := if bestTarget.Some? then bestTarget.value else start;
    requested := requested + [final];
    actual := report(final);
  }

  // ---------------------------------------------------------------------------
  // Capture
  // ---------------------------------------------------------------------------

  const Stem := "cal_zed_"

  /** Grayscale of the left half of a frame: what the loop detects on and saves. */
  function CroppedGray<Px, G>(toGray: Image<Px> -> G): Image<Px> -> G {
    (f: Image<Px>) => toGray(LeftHalf(f))
  }

  /** How `capture_zed_try_direct` ends. */
  datatype TryDirectSession<G> =
    | NoCamera
    | Finished(attempt: Attempt, firstSize: Size, finalSize: Size, state: SaveState<G>)

  /**
   * `capture_zed_try_direct()`: without a working attempt it returns;
   * otherwise it negotiates the resolution as written and runs the loop on
   * the left half of each frame, saving `scans/cal_zed_NNN.png` images.
   */
  method CaptureZedTryDirect<Px, G>(probe: Attempt -> Probe, report: Size -> Size, ticks: seq<Tick<Image<Px>>>,
                                    toGray: Image<Px> -> G, markerIds: G -> Option<seq<nat>>)
    returns (session: TryDirectSession<G>)
    ensures session.NoCamera? <==> FirstSuccess(Attempts, probe).None?
    ensures session.Finished? ==>
      && session.attempt == Attempts[FirstSuccess(Attempts, probe).value]
      && probe(session.attempt) == FirstFrame(session.firstSize)
      && session.finalSize == report(Resolutions[|Resolutions| - 1])
      && session.state == BreakRun(ticks, CroppedGray(toGray), markerIds, Stem)
  {
    var chosen, _, _ := SelectAttempt(Attempts, probe);
    if chosen.None? {
      return NoCamera;
    }
    var attempt := Attempts[chosen.value];
    var firstSize := probe(attempt).size;
    var _, actual, _ := NegotiateResolution(firstSize, report);
    var state := RunSaveLoop(ticks, CroppedGray(toGray), markerIds, Stem);
    return Finished(attempt, firstSize, actual, state);
  }
}

=== FILE: charuco.dfy ===
/**
 * What the scripts see of a ChArUco detection, and the per-image step that
 * both calibration scripts share: pairing every detected board corner whose
 * id the board knows with the board's 3D point for that id.
 *
 * Detection itself (`CharucoDetector.detectBoard`) and the board geometry
 * (`CharucoBoard.getObjPoints`) belong to OpenCV; here a detection is the
 * sequence of (corner id, image point) pairs it returns, in detection order,
 * and the board is the sequence of its markers' corner quadruples.
 */
module Charuco {

  /** One interpolated board corner: `charuco_ids[i]` with `charuco_corners[i]`. */
  datatype Corner<P> = Corner(id: nat, pt: P)

  /** `board_points[k]`: the four 3D corners of marker k. */
  datatype MarkerCorners<Q> = MarkerCorners(c0: Q, c1: Q, c2: Q, c3: Q)

  /** The correspondences one image contributes: 3D board points and 2D image points. */
  datatype View<Q, P> = View(obj: seq<Q>, img: seq<P>)

  /** `charuco_ids.ravel()` */
  function Ids<P>(d: seq<Corner<P>>): (ids: seq<nat>)
    ensures |ids| == |d|
    ensures forall i :: 0 <= i < |d| ==> ids[i] == d[i].id
  {
    if d == [] then [] else Ids(d[..|d| - 1]) + [d[|d| - 1].id]
  }

  /** The detected corners whose id indexes the board, in detection order. */
  function Kept<P, Q>(d: seq<Corner<P>>, board: seq<MarkerCorners<Q>>): (k: seq<Corner<P>>)
    ensures |k| <= |d|
    ensures forall j :: 0 <= j < |k| ==> k[j] in d && k[j].id < |board|
    ensures forall i :: 0 <= i < |d| && d[i].id < |board| ==> d[i] in k
  {
    if d == [] then []
    else
      var prev := Kept(d[..|d| - 1], board);
      var c := d[|d| - 1];
      assert d == d[..|d| - 1] + [c];
      if c.id < |board| then prev + [c] else prev
  }

  /**
   * The positions in the detection whose id indexes the board, ascending:
   * which entries of `charuco_ids.ravel()` pass the `corner_id <
   * len(board_points)` test.
   */
  function KeptIndices<P, Q>(d: seq<Corner<P>>, board: seq<MarkerCorners<Q>>): (m: seq<nat>)
    ensures forall j :: 0 <= j < |m| ==> m[j] < |d| && d[m[j]].id < |board|
    ensures forall j, l :: 0 <= j < l < |m| ==> m[j] < m[l]
    ensures forall i :: 0 <= i < |d| && d[i].id < |board| ==> i in m
  {
    if d == [] then []
    else
      var prev := KeptIndices(d[..|d| - 1], board);
      if d[|d| - 1].id < |board| then prev + [|d| - 1] else prev
  }

  /**
   * The kept corners are the detection restricted to those positions, in
   * detection order and each once: a filter, not merely a subset.
   */
  lemma {:induction false} KeptInOrder<P, Q>(d: seq<Corner<P>>, board: seq<MarkerCorners<Q>>)
    ensures var k, m := Kept(d, board), KeptIndices(d, board);
      |k| == |m| && forall j :: 0 <= j < |k| ==> k[j] == d[m[j]]
  {
    if d != [] {
      var init := d[..|d| - 1];
      KeptInOrder(init, board);
      var k0, m0 := Kept(init, board), KeptIndices(init, board);
      var k, m := Kept(d, board), KeptIndices(d, board);
      if d[|d| - 1].id < |board| {
        assert k == k0 + [d[|d| - 1]] && m == m0 + [|d| - 1];
      } else {
        assert k == k0 && m == m0;
      }
      forall j | 0 <= j < |k| ensures k[j] == d[m[j]] {
        if j < |k0| {
          assert k[j] == k0[j] == init[m0[j]];
          assert m[j] == m0[j];
        }
      }
    }
  }

  /**
   * The object and image points of one detection, built as the inner loops of
   * both calibration scripts build `obj_pts` and `img_pts`.
   */
  function ViewOf<P, Q>(d: seq<Corner<P>>, board: seq<MarkerCorners<Q>>): View<Q, P>
  {
    if d == [] then View([], [])
    else
      var v := ViewOf(d[..|d| - 1], board);
      var c := d[|d| - 1];
      if c.id < |board| then View(v.obj + [board[c.id].c0], v.img + [c.pt]) else v
  }

  /**
   * The two lists of a view run in lockstep: entry k pairs the k-th kept
   * corner's image point with the first corner of the board marker of the
   * same id.
   */
  lemma {:induction false} ViewOfKept<P, Q>(d: seq<Corner<P>>, board: seq<MarkerCorners<Q>>)
    ensures var v, k := ViewOf(d, board), Kept(d, board);
      && |v.obj| == |v.img| == |k|
      && forall j :: 0 <= j < |k| ==> k[j].id < |board| && v.obj[j] == board[k[j].id].c0 && v.img[j] == k[j].pt
  {
    if d != [] {
      ViewOfKept(d[..|d| - 1], board);
      var c := d[|d| - 1];
      if c.id < |board| {
        var k := Kept(d, board);
        assert k[|k| - 1] == c;
      }
    }
  }

  /**
   * `for i, corner_id in enumerate(charuco_ids.ravel()): if corner_id < len(board_points): ...`
   */
  method CollectView<P, Q>(d: seq<Corner<P>>, board: seq<MarkerCorners<Q>>) returns (objPts: seq<Q>, imgPts: seq<P>)
    ensures View(objPts, imgPts) == ViewOf(d, board)
    ensures |objPts| == |imgPts| == |Kept(d, board)|
  {
    objPts, imgPts := [], [];
    for i := 0 to |d|
      invariant View(objPts, imgPts) == ViewOf(d[..i], board)
    {
      var cornerId := d[i].id;
      if cornerId < |board| {
        var markerCornersForId := board[cornerId];
        objPts := objPts + [markerCornersForId.c0];
        imgPts := imgPts + [d[i].pt];
      }
      assert d[..i + 1][..i] == d[..i];
    }
    assert d[..|d|] == d;
    ViewOfKept(d, board);
  }
}

=== FILE: common.dfy ===
/**
 * Vocabulary shared by the capture, calibration and matching scripts:
 * optional values, key codes as the preview loops read them, the status of
 * an interactive loop, the log of files written, and the zero-padded decimal
 * counters (`{n:03d}`) that every saved file name carries.
 */
module Common {

  datatype Option<T> = None | Some(value: T)

  /** A key code as the loops read it: `cv2.waitKey(1) & 0xFF`. */
  type Key = k: int | 0 <= k < 256

  /** `waitKey(1)` yields -1 when no key was pressed; masked with 0xFF it is 255. */
  const NoKey: Key := 255

  predicate Pressed(k: Key, c: char) {
    k == c as int
  }

  /** `key == ord('q') or key == ord('Q')` */
  predicate IsQuit(k: Key) {
    Pressed(k, 'q') || Pressed(k, 'Q')
  }

  /** `key == ord('s') or key == ord('S')` */
  predicate IsSave(k: Key) {
    Pressed(k, 's') || Pressed(k, 'S')
  }

  /**
   * Why an interactive loop is no longer reading frames; `Raised` is an
   * exception thrown inside the loop body, which ends the script.
   */
  datatype Status = Running | Quit | ReadFailure | TooManyReadFailures | Raised

  /** One `cv2.imwrite` / `np.save`: the file name and what was stored in it. */
  datatype Written<A> = Written(name: string, data: A)

  /** The two files of one saved stereo pair, written under the same index. */
  datatype SavedPair<A> = SavedPair(first: Written<A>, second: Written<A>)

  /** The marker gate of every capture script: at least this many ArUco markers. */
  const MinMarkers := 4

  /** `len(ids) if ids is not None else 0` */
  function MarkerCount(ids: Option<seq<nat>>): nat {
    match ids
    case None => 0
    case Some(s) => |s|
  }

  /** `ids is not None and len(ids) >= 4`, the condition under which a frame may be saved. */
  function EnoughMarkers(ids: Option<seq<nat>>): (ok: bool)
    ensures ok <==> MarkerCount(ids) >= MinMarkers
    ensures ids.None? ==> !ok
  {
    ids.Some? && |ids.value| >= MinMarkers
  }

  /** One pass of a single-camera loop: a failed `cap.read()`, or a frame and the key read after it. */
  datatype Tick<F> = ReadFailed | Read(frame: F, key: Key)

  /**
   * The variables of a single-camera capture loop: `saved_count`, the
   * failed-read counter `frame_count` (where the script keeps one), the
   * images written, and whether the loop still runs.
   */
  datatype SaveState<G> = SaveState(savedCount: nat, failedReads: nat, saved: seq<Written<G>>, status: Status)

  /** `os.path.join("scans", f"{stem}{n:03d}.png")` */
  function IndexedName(stem: string, n: nat): string {
    "scans/" + stem + Pad3(n) + ".png"
  }

  /**
   * The key handling every single-camera loop shares: S saves the grayscale
   * image under the current count when at least 4 markers were found, and
   * q/Q stops the loop.
   */
  function HandleKey<G>(s: SaveState<G>, key: Key, gray: G, ids: Option<seq<nat>>, stem: string): SaveState<G> {
    if IsSave(key) then
      if EnoughMarkers(ids) then s.(savedCount := s.savedCount + 1, saved := s.saved + [Written(IndexedName(stem, s.savedCount), gray)])
      else s
    else if IsQuit(key) then s.(status := Quit)
    else s
  }

  /** The count rises by one exactly when S is pressed with enough markers, and then the image is written under the old count. */
  lemma HandleKeySaves<G>(s: SaveState<G>, key: Key, gray: G, ids: Option<seq<nat>>, stem: string)
    ensures var r := HandleKey(s, key, gray, ids, stem);
      && r.failedReads == s.failedReads
      && (r.savedCount == s.savedCount + 1 <==> IsSave(key) && MarkerCount(ids) >= MinMarkers)
      && (r.savedCount == s.savedCount + 1 ==> r.saved == s.saved + [Written(IndexedName(stem, s.savedCount), gray)])
      && (r.savedCount != s.savedCount + 1 ==> r.savedCount == s.savedCount && r.saved == s.saved)
      && r.status == if !IsSave(key) && IsQuit(key) then Quit else s.status
  {
  }

  // ---------------------------------------------------------------------------
  // Decimal formatting: str(n) and f"{n:03d}"
  // ---------------------------------------------------------------------------

  predicate IsDigit(c: char) {
    '0' <= c <= '9'
  }

  predicate AllDigits(s: string) {
    forall i :: 0 <= i < |s| ==> IsDigit(s[i])
  }

  function DigitChar(d: nat): (c: char)
    requires d < 10
    ensures IsDigit(c)
  {
    ('0' as int + d) as char
  }

  function DigitValue(c: char): (d: nat)
    requires IsDigit(c)
    ensures d < 10
  {
    c as int - '0' as int
  }

  /** `str(n)` for a non-negative integer: its decimal digits, without leading zeros. */
  function Decimal(n: nat): (s: string)
    ensures 1 <= |s| && AllDigits(s)
    ensures n < 10 ==> |s| == 1
    ensures n < 100 ==> |s| <= 2
    ensures n < 1000 ==> |s| <= 3
  {
    if n < 10 then [DigitChar(n)] else Decimal(n / 10) + [DigitChar(n % 10)]
  }

  function Zeros(k: nat): (s: string)
    ensures |s| == k && AllDigits(s)
  {
    if k == 0 then "" else "0" + Zeros(k - 1)
  }

  /** `f"{n:03d}"`: the decimal digits of n, left-padded with '0' to at least three. */
  function Pad3(n: nat): (s: string)
    ensures AllDigits(s)
    ensures |s| >= 3
    ensures n < 1000 ==> |s| == 3
  {
    var d := Decimal(n);
    (if |d| < 3 then Zeros(3 - |d|) else "") + d
  }

  /** The value of a string of decimal digits; the inverse of Decimal and Pad3. */
  function ParseDecimal(s: string): nat
    requires AllDigits(s)
  {
    if s == [] then 0 else ParseDecimal(s[..|s| - 1]) * 10 + DigitValue(s[|s| - 1])
  }

  lemma {:induction false} ParseDecimalOfDecimal(n: nat)
    ensures ParseDecimal(Decimal(n)) == n
  {
    var d := Decimal(n);
    if n >= 10 {
      ParseDecimalOfDecimal(n / 10);
      assert d[..|d| - 1] == Decimal(n / 10);
    }
  }

  lemma {:induction false} ParseDecimalIgnoresLeadingZeros(k: nat, s: string)
    requires AllDigits(s)
    ensures ParseDecimal(Zeros(k) + s) == ParseDecimal(s)
    decreases |s|, k
  {
    if s == [] {
      assert Zeros(k) + s == Zeros(k);
      if k > 0 {
        assert Zeros(k)[..k - 1] == Zeros(k - 1) by {
          ZerosAllZero(k);
          ZerosAllZero(k - 1);
        }
        ParseDecimalIgnoresLeadingZeros(k - 1, s);
        assert Zeros(k - 1) + s == Zeros(k - 1);
        ZerosAllZero(k);
      }
    } else {
      var t := Zeros(k) + s;
      assert t[..|t| - 1] == Zeros(k) + s[..|s| - 1];
      ParseDecimalIgnoresLeadingZeros(k, s[..|s| - 1]);
    }
  }

  lemma {:induction false} ZerosAllZero(k: nat)
    ensures forall i :: 0 <= i < k ==> Zeros(k)[i] == '0'
  {
    if k > 0 {
      ZerosAllZero(k - 1);
    }
  }

  /** Reading back a padded counter gives the counter: `int(f"{n:03d}") == n`. */
  lemma Pad3RoundTrip(n: nat)
    ensures ParseDecimal(Pad3(n)) == n
  {
    var d := Decimal(n);
    ParseDecimalOfDecimal(n);
    if |d| < 3 {
      ParseDecimalIgnoresLeadingZeros(3 - |d|, d);
    } else {
      assert Pad3(n) == d;
    }
  }

  /** Two different counters never format to the same text. */
  lemma Pad3Injective(i: nat, j: nat)
    requires Pad3(i) == Pad3(j)
    ensures i == j
  {
    Pad3RoundTrip(i);
    Pad3RoundTrip(j);
  }

  /**
   * A name of the shape `prefix + {n:03d} + suffix` determines n, so a loop
   * that saves under consecutive counters never overwrites its own files.
   */
  lemma IndexedNameInjective(prefix: string, suffix: string, i: nat, j: nat)
    requires prefix + Pad3(i) + suffix == prefix + Pad3(j) + suffix
    ensures i == j
  {
    var a, b := prefix + Pad3(i) + suffix, prefix + Pad3(j) + suffix;
    assert |Pad3(i)| == |Pad3(j)|;
    assert a[|prefix|..|prefix| + |Pad3(i)|] == Pad3(i);
    assert b[|prefix|..|prefix| + |Pad3(j)|] == Pad3(j);
    Pad3Injective(i, j);
  }
}

=== FILE: compare_rectification_options.dfy ===
/**
 * opencv-sync/compare_rectification_options.py: FaceCam (device 0) and the
 * ZED through OBS (device 3) shown side by side under one of three
 * rectification options, chosen by key; option 1 warps the FaceCam frame
 * with the perspective transform, option 2 remaps both frames with the dual
 * rectification maps, and any option whose data is missing shows the frames
 * unchanged.
 *
 * Opening the devices, `np.load`, `cv2.warpPerspective` and `cv2.remap` are
 * function-typed parameters; the frames read and keys pressed on each pass
 * are an input sequence; the images written are logged.
 */
module CompareRectificationOptions {
  import opened Common

  const FaceCamDevice := 0
  const ZedDevice := 3

  const TransformFile := "data/facecam_to_zed_transform.npy"
  const MapFiles: seq<string> := ["data/dual_map1x.npy", "data/dual_map1y.npy", "data/dual_map2x.npy", "data/dual_map2y.npy"]

  // ---------------------------------------------------------------------------
  // Loading the rectification data
  // ---------------------------------------------------------------------------

  /** `(map1x, map1y, map2x, map2y)` */
  datatype DualMaps<A> = DualMaps(map1x: A, map1y: A, map2x: A, map2y: A)

  /**
   * The `try` block over the four map files: the first missing file raises
   * `FileNotFoundError` and skips the rest, so the maps are there only when
   * all four files load, and then they are those four arrays in order.
   */
  function LoadDualMaps<A>(load: string -> Option<A>): (maps: Option<DualMaps<A>>)
    ensures maps.Some? <==> forall i :: 0 <= i < |MapFiles| ==> load(MapFiles[i]).Some?
    ensures maps.Some? ==>
      maps.value == DualMaps(load(MapFiles[0]).value, load(MapFiles[1]).value,
                             load(MapFiles[2]).value, load(MapFiles[3]).value)
  {
    match (load(MapFiles[0]), load(MapFiles[1]), load(MapFiles[2]), load(MapFiles[3]))
    case (Some(m1x), Some(m1y), Some(m2x), Some(m2y)) => Some(DualMaps(m1x, m1y, m2x, m2y))
    case _ => None
  }

  // ---------------------------------------------------------------------------
  // The per-frame mode
  // ---------------------------------------------------------------------------

  /** How a pair of frames is shown: warp FaceCam, remap both, or pass both through. */
  datatype Mode = Warp | Remap | PassThrough

  /** The `if`/`elif`/`else` choice on the current option and the data available. */
  function ModeFor(option: int, hasTransform: bool, hasMaps: bool): Mode {
    if option == 1 && hasTransform then Warp
    else if option == 2 && hasMaps then Remap
    else PassThrough
  }

  /**
   * Option 1 warps exactly when the transform is there, option 2 remaps
   * exactly when the maps are there; every other case, option 3 or a
   * selected option whose data is missing, falls back to pass-through.
   */
  lemma ModeFallsBack(option: int, hasTransform: bool, hasMaps: bool)
    ensures ModeFor(option, hasTransform, hasMaps) == Warp <==> option == 1 && hasTransform
    ensures ModeFor(option, hasTransform, hasMaps) == Remap <==> option == 2 && hasMaps
    ensures ModeFor(option, hasTransform, hasMaps) == PassThrough <==>
      !(option == 1 && hasTransform) && !(option == 2 && hasMaps)
    ensures option == 3 ==> ModeFor(option, hasTransform, hasMaps) == PassThrough
  {
  }

  /** The two frames as shown: `(rectified_facecam, rectified_zed)`. */
  datatype Shown<F> = Shown(facecam: F, zed: F)

  /** The frames after rectification under the option's mode. */
  function Rectify<F, A>(option: int, transform: Option<A>, maps: Option<DualMaps<A>>, facecam: F, zed: F,
                         warp: (F, A) -> F, remap: (F, A, A) -> F): Shown<F>
  {
    match ModeFor(option, transform.Some?, maps.Some?)
    case Warp => Shown(warp(facecam, transform.value), zed)
    case Remap => Shown(remap(facecam, maps.value.map1x, maps.value.map1y), remap(zed, maps.value.map2x, maps.value.map2y))
    case PassThrough => Shown(facecam, zed)
  }

  /**
   * The ZED frame is left as read unless option 2 is selected and the maps
   * are loaded, and then it is remapped with the second pair of maps; the
   * FaceCam frame is left as read exactly in pass-through mode.
   */
  lemma ZedUntouchedUnlessRemapped<F, A>(option: int, transform: Option<A>, maps: Option<DualMaps<A>>, facecam: F, zed: F,
                                          warp: (F, A) -> F, remap: (F, A, A) -> F)
    ensures var r := Rectify(option, transform, maps, facecam, zed, warp, remap);
      && (!(option == 2 && maps.Some?) ==> r.zed == zed)
      && (option == 2 && maps.Some? ==> r.zed == remap(zed, maps.value.map2x, maps.value.map2y))
      && (ModeFor(option, transform.Some?, maps.Some?) == PassThrough ==> r == Shown(facecam, zed))
      && (option == 1 && transform.Some? ==> r.facecam == warp(facecam, transform.value))
  {
  }

  // ---------------------------------------------------------------------------
  // The comparison loop
  // ---------------------------------------------------------------------------

  /** `f"scans/comparison_{camera}_{current_option}_{saved_count:03d}.png"` */
  function ComparisonName(camera: string, option: nat, n: nat): string {
    "scans/comparison_" + camera + "_" + Decimal(option) + "_" + Pad3(n) + ".png"
  }

  /** One pass of the loop: the two reads (None when `ret` is false) and the key. */
  datatype CompareTick<F> = CompareTick(facecam: Option<F>, zed: Option<F>, key: Key)

  /** The loop's variables: `current_option`, `saved_count`, the pairs written, and whether the loop still runs. */
  datatype CompareState<F> = CompareState(option: nat, savedCount: nat, saved: seq<SavedPair<F>>, status: Status)

  /** The loop's data: the transform and the maps, each present or not. */
  datatype Loaded<A> = Loaded(transform: Option<A>, maps: Option<DualMaps<A>>)

  /**
   * One pass of the loop; a stopped loop reads nothing more. `stackable`
   * says whether `np.hstack` accepts the two frames as shown (equal heights
   * and compatible channels); when it does not, the pass raises before any
   * key is read and the script ends.
   */
  function CompareStep<F, A>(s: CompareState<F>, t: CompareTick<F>, data: Loaded<A>,
                             warp: (F, A) -> F, remap: (F, A, A) -> F, stackable: (F, F) -> bool): CompareState<F>
  {
    if s.status != Running then s
    else if t.facecam.None? || t.zed.None? then s.(status := ReadFailure)
    else
      var shown := Rectify(s.option, data.transform, data.maps, t.facecam.value, t.zed.value, warp, remap);
      if !stackable(shown.facecam, shown.zed) then s.(status := Raised)
      else if IsQuit(t.key) then s.(status := Quit)
      else if IsSave(t.key) then
        var pair := SavedPair(Written(ComparisonName("facecam", s.option, s.savedCount), shown.facecam),
                              Written(ComparisonName("zed", s.option, s.savedCount), shown.zed));
        s.(savedCount := s.savedCount + 1, saved := s.saved + [pair])
      else if Pressed(t.key, '1') then s.(option := 1)
      else if Pressed(t.key, '2') then s.(option := 2)
      else if Pressed(t.key, '3') then s.(option := 3)
      else s
  }

  /** The loop's variables after the passes in `ticks`; the option starts at 1. */
  function CompareRun<F, A>(ticks: seq<CompareTick<F>>, data: Loaded<A>, warp: (F, A) -> F, remap: (F, A, A) -> F, stackable: (F, F) -> bool)
    : CompareState<F>
  {
    if ticks == [] then CompareState(1, 0, [], Running)
    else CompareStep(CompareRun(ticks[..|ticks| - 1], data, warp, remap, stackable), ticks[|ticks| - 1], data, warp, remap, stackable)
  }

  /** Once the loop has stopped, later passes change nothing. */
  lemma {:induction false} StoppedRunIsFinal<F, A>(ticks: seq<CompareTick<F>>, k: nat, data: Loaded<A>,
                                                  warp: (F, A) -> F, remap: (F, A, A) -> F, stackable: (F, F) -> bool)
    requires k <= |ticks|
    requires CompareRun(ticks[..k], data, warp, remap, stackable).status != Running
    ensures CompareRun(ticks, data, warp, remap, stackable) == CompareRun(ticks[..k], data, warp, remap, stackable)
    decreases |ticks|
  {
    if k < |ticks| {
      var init := ticks[..|ticks| - 1];
      assert init[..k] == ticks[..k];
      StoppedRunIsFinal(init, k, data, warp, remap, stackable);
    } else {
      assert ticks[..k] == ticks;
    }
  }

  /**
   * Keys 1, 2 and 3 select that option whether or not its data is loaded,
   * and change nothing else; S saves the two frames as shown under the
   * current option and count, even when the option fell back to
   * pass-through; a failed read or q/Q stops the loop. When the frames as
   * shown cannot be stacked side by side, the pass raises before the key is
   * looked at: nothing is saved and no option changes, whatever was pressed.
   */
  lemma CompareStepEffects<F, A>(s: CompareState<F>, t: CompareTick<F>, data: Loaded<A>,
                                 warp: (F, A) -> F, remap: (F, A, A) -> F, stackable: (F, F) -> bool)
    requires s.status == Running
    ensures var r := CompareStep(s, t, data, warp, remap, stackable);
      && (t.facecam.None? || t.zed.None? ==> r == s.(status := ReadFailure))
      && (t.facecam.Some? && t.zed.Some? ==>
            var shown := Rectify(s.option, data.transform, data.maps, t.facecam.value, t.zed.value, warp, remap);
            && (!stackable(shown.facecam, shown.zed) ==> r == s.(status := Raised))
            && (stackable(shown.facecam, shown.zed) ==>
            && (IsQuit(t.key) ==> r == s.(status := Quit))
            && (IsSave(t.key) ==>
                  && r.savedCount == s.savedCount + 1 && r.option == s.option && r.status == Running
                  && r.saved == s.saved + [SavedPair(Written(ComparisonName("facecam", s.option, s.savedCount), shown.facecam),
                                                     Written(ComparisonName("zed", s.option, s.savedCount), shown.zed))])
            && (Pressed(t.key, '1') ==> r == s.(option := 1))
            && (Pressed(t.key, '2') ==> r == s.(option := 2))
            && (Pressed(t.key, '3') ==> r == s.(option := 3))))
  {
  }

  /**
   * A first pass whose frames as shown cannot be stacked ends the script
   * with nothing saved, even with S pressed: for instance a FaceCam frame
   * warped to 1920x1080 under option 1 beside a 1280x720 ZED frame.
   */
  lemma UnstackableFirstPassSavesNothing<F, A>(facecam: F, zed: F, key: Key, data: Loaded<A>,
                                              warp: (F, A) -> F, remap: (F, A, A) -> F, stackable: (F, F) -> bool)
    requires var shown := Rectify(1, data.transform, data.maps, facecam, zed, warp, remap);
      !stackable(shown.facecam, shown.zed)
    ensures var r := CompareRun([CompareTick(Some(facecam), Some(zed), key)], data, warp, remap, stackable);
      r.status == Raised && r.saved == [] && r.savedCount == 0
  {
    var ticks := [CompareTick(Some(facecam), Some(zed), key)];
    assert ticks[..|ticks| - 1] == [];
  }

  /** Both files of a saved pair are named after the same option, 1, 2 or 3, and the counter `n`. */
  predicate NamedPair<F>(p: SavedPair<F>, n: nat) {
    exists option: nat :: 1 <= option <= 3 && p.first.name == ComparisonName("facecam", option, n)
                                          && p.second.name == ComparisonName("zed", option, n)
  }

  /**
   * The option is always 1, 2 or 3; saved pairs are numbered consecutively
   * from 0, `saved_count` is their number, and each pair's two files carry
   * the same option and index.
   */
  lemma {:induction false} ComparisonsNumbered<F, A>(ticks: seq<CompareTick<F>>, data: Loaded<A>,
                                                    warp: (F, A) -> F, remap: (F, A, A) -> F, stackable: (F, F) -> bool)
    ensures var s := CompareRun(ticks, data, warp, remap, stackable);
      && 1 <= s.option <= 3
      && |s.saved| == s.savedCount
      && forall i :: 0 <= i < |s.saved| ==> NamedPair(s.saved[i], i)
  {
    if ticks != [] {
      var init := ticks[..|ticks| - 1];
      ComparisonsNumbered(init, data, warp, remap, stackable);
      var before := CompareRun(init, data, warp, remap, stackable);
      var after := CompareRun(ticks, data, warp, remap, stackable);
      if |after.saved| > |before.saved| {
        var last := after.saved[|before.saved|];
        assert last.first.name == ComparisonName("facecam", before.option, |before.saved|);
        assert last.second.name == ComparisonName("zed", before.option, |before.saved|);
        assert NamedPair(last, |before.saved|);
      }
    }
  }

  /** Comparison names with different counters differ, whatever options they carry. */
  lemma ComparisonNameInjective(camera: string, option1: nat, i: nat, option2: nat, j: nat)
    requires 1 <= option1 <= 3 && 1 <= option2 <= 3
    requires ComparisonName(camera, option1, i) == ComparisonName(camera, option2, j)
    ensures i == j
  {
    var p1 := "scans/comparison_" + camera + "_" + Decimal(option1) + "_";
    var p2 := "scans/comparison_" + camera + "_" + Decimal(option2) + "_";
    var a, b := ComparisonName(camera, option1, i), ComparisonName(camera, option2, j);
    assert a == p1 + (Pad3(i) + ".png");
    assert b == p2 + (Pad3(j) + ".png");
    assert |p1| == |p2|;
    assert a[|p1|..] == Pad3(i) + ".png";
    assert b[|p2|..] == Pad3(j) + ".png";
    var x, y := Pad3(i) + ".png", Pad3(j) + ".png";
    assert x[..|x| - 4] == Pad3(i);
    assert y[..|y| - 4] == Pad3(j);
    Pad3Injective(i, j);
  }

  /** No comparison image is overwritten by a later save in the same run. */
  lemma ComparisonsNeverOverwritten<F, A>(ticks: seq<CompareTick<F>>, data: Loaded<A>,
                                          warp: (F, A) -> F, remap: (F, A, A) -> F, stackable: (F, F) -> bool,
                                          i: nat, j: nat)
    requires i < j < |CompareRun(ticks, data, warp, remap, stackable).saved|
    ensures var saved := CompareRun(ticks, data, warp, remap, stackable).saved;
      saved[i].first.name != saved[j].first.name && saved[i].second.name != saved[j].second.name
  {
    ComparisonsNumbered(ticks, data, warp, remap, stackable);
    var saved := CompareRun(ticks, data, warp, remap, stackable).saved;
    assert NamedPair(saved[i], i) && NamedPair(saved[j], j);
    var oi: nat :| 1 <= oi <= 3 && saved[i].first.name == ComparisonName("facecam", oi, i)
                                && saved[i].second.name == ComparisonName("zed", oi, i);
    var oj: nat :| 1 <= oj <= 3 && saved[j].first.name == ComparisonName("facecam", oj, j)
                                && saved[j].second.name == ComparisonName("zed", oj, j);
    if saved[i].first.name == saved[j].first.name {
      ComparisonNameInjective("facecam", oi, i, oj, j);
    }
    if saved[i].second.name == saved[j].second.name {
      ComparisonNameInjective("zed", oi, i, oj, j);
    }
  }

  /** How `compare_rectification_options` ends. */
  datatype CompareSession<F, A> = NotOpened | Finished(data: Loaded<A>, state: CompareState<F>)

  /**
   * `compare_rectification_options()`: if either camera does not open it
   * returns; otherwise it loads the transform and the maps, each of which may
   * be missing, and runs the loop from option 1 until a failed read, q/Q,
   * or a pair of frames `np.hstack` rejects.
   */
  method CompareRectificationOptions<F, A>(isOpened: nat -> bool, load: string -> Option<A>, ticks: seq<CompareTick<F>>,
                                           warp: (F, A) -> F, remap: (F, A, A) -> F, stackable: (F, F) -> bool)
    returns (session: CompareSession<F, A>)
    ensures session.NotOpened? <==> !isOpened(FaceCamDevice) || !isOpened(ZedDevice)
    ensures session.Finished? ==>
      && session.data == Loaded(load(TransformFile), LoadDualMaps(load))
      && session.state == CompareRun(ticks, session.data, warp, remap, stackable)
  {
    if !isOpened(FaceCamDevice) || !isOpened(ZedDevice) {
      return NotOpened;
    }
    var data := Loaded(load(TransformFile), LoadDualMaps(load));
    var savedCount := 0;
    var currentOption := 1;
    var saved: seq<SavedPair<F>> := [];
    var i := 0;
    while i < |ticks|
      invariant 0 <= i <= |ticks|
      invariant CompareRun(ticks[..i], data, warp, remap, stackable) == CompareState(currentOption, savedCount, saved, Running)
    {
      var t := ticks[i];
      assert ticks[..i + 1][..i] == ticks[..i];
      i := i + 1;
      if t.facecam.None? || t.zed.None? {
        StoppedRunIsFinal(ticks, i, data, warp, remap, stackable);
        return Finished(data, CompareState(currentOption, savedCount, saved, ReadFailure));
      }
      var frameFacecam, frameZed := t.facecam.value, t.zed.value;
      var rectifiedFacecam, rectifiedZed;
      if currentOption == 1 && data.transform.Some? {
        rectifiedFacecam := warp(frameFacecam, data.transform.value);
        rectifiedZed := frameZed;
      } else if currentOption == 2 && data.maps.Some? {
        var maps := data.maps.value;
        rectifiedFacecam := remap(frameFacecam, maps.map1x, maps.map1y);
        rectifiedZed := remap(frameZed, maps.map2x, maps.map2y);
      } else {
        rectifiedFacecam := frameFacecam;
        rectifiedZed := frameZed;
      }
      if !stackable(rectifiedFacecam, rectifiedZed) {
        StoppedRunIsFinal(ticks, i, data, warp, remap, stackable);
        return Finished(data, CompareState(currentOption, savedCount, saved, Raised));
      }
      var key := t.key;
      if key == 'q' as int || key == 'Q' as int {
        StoppedRunIsFinal(ticks, i, data, warp, remap, stackable);
        return Finished(data, CompareState(currentOption, savedCount, saved, Quit));
      } else if key == 's' as int || key == 'S' as int {
        saved := saved + [SavedPair(Written(ComparisonName("facecam", currentOption, savedCount), rectifiedFacecam),
                                    Written(ComparisonName("zed", currentOption, savedCount), rectifiedZed))];
        savedCount := savedCount + 1;
      } else if key == '1' as int {
        currentOption := 1;
      } else if key == '2' as int {
        currentOption := 2;
      } else if key == '3' as int {
        currentOption := 3;
      }
    }
    assert ticks[..i] == ticks;
    return Finished(data, CompareState(currentOption, savedCount, saved, Running));
  }
}

=== FILE: frames.dfy ===
/**
 * Camera frames as the capture scripts index them: `frame.shape[:2]` is
 * (height, width) and `frame[:, :w//2]` keeps the left half of every row.
 */
module Frames {

  /** A frame: its height, its width and its rows of pixels. */
  datatype Frame<Px> = Frame(height: nat, width: nat, rows: seq<seq<Px>>)

  predicate Shaped<Px>(f: Frame<Px>) {
    |f.rows| == f.height && forall i :: 0 <= i < f.height ==> |f.rows[i]| == f.width
  }

  /** What `cap.read()` delivers: a frame whose rows all have the stated width. */
  type Image<Px> = f: Frame<Px> | Shaped(f) witness Frame(0, 0, [])

  /**
   * `frame[:, :w//2]`: the left `w//2` columns at full height, pixel for
   * pixel (the left eye of the ZED's side-by-side image).
   */
  function LeftHalf<Px>(f: Image<Px>): (h: Image<Px>)
    ensures h.height == f.height && h.width == f.width / 2
    ensures forall i, j :: 0 <= i < h.height && 0 <= j < h.width ==> h.rows[i][j] == f.rows[i][j]
  {
    Frame(f.height, f.width / 2, seq(f.height, i requires 0 <= i < f.height => f.rows[i][..f.width / 2]))
  }
}

=== FILE: match_facecam_to_zed.dfy ===
/**
 * opencv-sync/match_facecam_to_zed_simple.py: building the FaceCam-to-ZED
 * point correspondences from saved stereo pairs, and fitting the homography.
 *
 * The file listing (`sorted(glob.glob("scans/pair0_*.png"))`) is an input;
 * `os.path.exists`, `cv2.imread`, `CharucoDetector.detectBoard` and
 * `cv2.findHomography` are function-typed parameters.
 */
module MatchFacecamToZed {
  import opened Common
  import opened PathNames
  import opened Charuco

  /** Corners each detection must have before a pair is considered. */
  const MinCorners := 8
  /** Corner ids both detections must share. */
  const MinCommonIds := 8
  /** Accepted pairs needed before a homography is fitted. */
  const MinValidPairs := 3
  /** `ransacReprojThreshold=5.0` */
  const RansacReprojThreshold: real := 5.0
  const TransformFile := "data/facecam_to_zed_transform.npy"

  // ---------------------------------------------------------------------------
  // Partner naming
  // ---------------------------------------------------------------------------

  /**
   * `f"scans/pair1_{pair_num}.png"` where `pair_num` is the basename with
   * every "pair0_" and then every ".png" removed.
   */
  function PartnerName(pairFile: string): string {
    var pairNum := ReplaceAll(ReplaceAll(Basename(pairFile), "pair0_", ""), ".png", "");
    "scans/pair1_" + pairNum + ".png"
  }

  lemma DigitsLackNameChars(num: string)
    requires AllDigits(num)
    ensures '/' !in num && 'p' !in num && '.' !in num
  {
    forall i | 0 <= i < |num| ensures num[i] != '/' && num[i] != 'p' && num[i] != '.' {
      assert IsDigit(num[i]);
    }
  }

  lemma BasenameOfPairFile(num: string)
    requires AllDigits(num)
    ensures Basename("scans/pair0_" + num + ".png") == "pair0_" + num + ".png"
  {
    DigitsLackNameChars(num);
    var name := "pair0_" + num + ".png";
    assert "scans/pair0_" + num + ".png" == "scans" + "/" + name;
    assert forall i :: 0 <= i < |name| ==> name[i] != '/' by {
      forall i | 0 <= i < |name| ensures name[i] != '/' {
        if i < 6 {
          assert name[i] == "pair0_"[i];
        } else if i < 6 + |num| {
          assert name[i] == num[i - 6];
        } else {
          assert name[i] == ".png"[i - 6 - |num|];
        }
      }
    }
    BasenameAfterSlash("scans", name);
  }

  lemma StripPairPrefix(num: string)
    requires AllDigits(num)
    ensures ReplaceAll("pair0_" + num + ".png", "pair0_", "") == num + ".png"
  {
    DigitsLackNameChars(num);
    assert "pair0_" + num + ".png" == "pair0_" + (num + ".png");
    ReplaceLeading("pair0_", num + ".png", "");
    ReplaceSkipsPrefix(num, ".png", "pair0_", "");
    assert ReplaceAll(".png", "pair0_", "") == ".png";
  }

  lemma StripPngSuffix(num: string)
    requires AllDigits(num)
    ensures ReplaceAll(num + ".png", ".png", "") == num
  {
    DigitsLackNameChars(num);
    ReplaceSkipsPrefix(num, "", ".png", "");
    assert num + ".png" == num + (".png" + "");
    ReplaceSkipsPrefix(num, ".png", ".png", "");
    ReplaceLeading(".png", "", "");
  }

  /**
   * For a listed file `scans/pair0_<digits>.png` the partner is
   * `scans/pair1_<digits>.png`: the same number, the other camera.
   */
  lemma PartnerOfPairFile(num: string)
    requires AllDigits(num)
    ensures PartnerName("scans/pair0_" + num + ".png") == "scans/pair1_" + num + ".png"
  {
    BasenameOfPairFile(num);
    StripPairPrefix(num);
    StripPngSuffix(num);
  }

  // ---------------------------------------------------------------------------
  // Common ids (`np.intersect1d`) and first occurrences (`np.where(...)[0][0]`)
  // ---------------------------------------------------------------------------

  predicate StrictlyIncreasing(s: seq<nat>) {
    forall i, j :: 0 <= i < j < |s| ==> s[i] < s[j]
  }

  /** The tail of a strictly increasing list is strictly increasing and lies above its head. */
  lemma TailAboveHead(s: seq<nat>)
    requires StrictlyIncreasing(s) && s != []
    ensures StrictlyIncreasing(s[1..])
    ensures forall y :: y in s[1..] ==> s[0] < y
  {
    forall y | y in s[1..] ensures s[0] < y {
      var k :| 0 <= k < |s[1..]| && s[1..][k] == y;
      assert s[k + 1] == y;
    }
  }

  /** A head below every element of a strictly increasing list keeps it strictly increasing. */
  lemma ConsBelowIncreasing(x: nat, rest: seq<nat>)
    requires StrictlyIncreasing(rest)
    requires forall y :: y in rest ==> x < y
    ensures StrictlyIncreasing([x] + rest)
  {
    var r := [x] + rest;
    forall i, j | 0 <= i < j < |r|
      ensures r[i] < r[j]
    {
      assert r[j] == rest[j - 1];
      if i == 0 {
        assert rest[j - 1] in rest;
      } else {
        assert r[i] == rest[i - 1];
      }
    }
  }

  function InsertSorted(s: seq<nat>, x: nat): (r: seq<nat>)
    requires StrictlyIncreasing(s)
    ensures StrictlyIncreasing(r)
    ensures forall y :: y in r <==> y in s || y == x
  {
    if s == [] then [x]
    else if x < s[0] then [x] + s
    else if x == s[0] then s
    else
      TailAboveHead(s);
      var rest := InsertSorted(s[1..], x);
      ConsBelowIncreasing(s[0], rest);
      assert s == [s[0]] + s[1..];
      [s[0]] + rest
  }

  /** `np.intersect1d(a, b)`: the ids present in both, sorted, each once. */
  function CommonIds(a: seq<nat>, b: seq<nat>): (r: seq<nat>)
    ensures StrictlyIncreasing(r)
    ensures forall y :: y in r <==> y in a && y in b
  {
    if a == [] then []
    else
      var prev := CommonIds(a[..|a| - 1], b);
      var x := a[|a| - 1];
      assert a == a[..|a| - 1] + [x];
      if x in b then InsertSorted(prev, x) else prev
  }

  /** The first index at which x occurs in ids, if any. */
  function FirstIndex(ids: seq<nat>, x: nat): (r: Option<nat>)
    ensures r.Some? <==> x in ids
    ensures r.Some? ==> r.value < |ids| && ids[r.value] == x
    ensures r.Some? ==> forall j :: 0 <= j < r.value ==> ids[j] != x
  {
    if ids == [] then None
    else if ids[0] == x then Some(0)
    else match FirstIndex(ids[1..], x)
      case None => None
      case Some(j) => Some(j + 1)
  }

  // ---------------------------------------------------------------------------
  // One stereo pair
  // ---------------------------------------------------------------------------

  /**
   * The points of one pair, built as the inner loop over `common_ids` builds
   * `facecam_pts` and `zed_pts`.
   */
  function Correspond<P>(df: seq<Corner<P>>, dz: seq<Corner<P>>, common: seq<nat>): (seq<P>, seq<P>)
  {
    if common == [] then ([], [])
    else
      var prev := Correspond(df, dz, common[..|common| - 1]);
      var id := common[|common| - 1];
      match (FirstIndex(Ids(df), id), FirstIndex(Ids(dz), id))
      case (Some(i), Some(j)) => (prev.0 + [df[i].pt], prev.1 + [dz[j].pt])
      case _ => prev
  }

  /** The point of the first corner with the given id: `d[np.where(ids == id)[0][0]]`. */
  function FirstPoint<P>(d: seq<Corner<P>>, id: nat): P
    requires id in Ids(d)
  {
    d[FirstIndex(Ids(d), id).value].pt
  }

  /** The last common id adds the first corner with that id on each side. */
  lemma CorrespondLast<P>(df: seq<Corner<P>>, dz: seq<Corner<P>>, common: seq<nat>)
    requires common != []
    requires common[|common| - 1] in Ids(df) && common[|common| - 1] in Ids(dz)
    ensures var prev, id := Correspond(df, dz, common[..|common| - 1]), common[|common| - 1];
      Correspond(df, dz, common) == (prev.0 + [FirstPoint(df, id)], prev.1 + [FirstPoint(dz, id)])
  {
  }

  /** `pts` holds, for each id in turn, the point of the first corner of `d` with that id. */
  ghost predicate FirstPointsOf<P>(pts: seq<P>, d: seq<Corner<P>>, ids: seq<nat>) {
    && |pts| == |ids|
    && forall k :: 0 <= k < |ids| ==> ids[k] in Ids(d) && pts[k] == FirstPoint(d, ids[k])
  }

  /** One more id extends the points by that id's first corner. */
  lemma FirstPointsOfSnoc<P>(pts: seq<P>, d: seq<Corner<P>>, ids: seq<nat>, id: nat)
    requires FirstPointsOf(pts, d, ids) && id in Ids(d)
    ensures FirstPointsOf(pts + [FirstPoint(d, id)], d, ids + [id])
  {
    var pts', ids' := pts + [FirstPoint(d, id)], ids + [id];
    forall k | 0 <= k < |ids'|
      ensures ids'[k] in Ids(d) && pts'[k] == FirstPoint(d, ids'[k])
    {
      if k < |ids| {
        assert ids'[k] == ids[k] && pts'[k] == pts[k];
      }
    }
  }

  /**
   * When every id is detected in both images, the pair yields one point per
   * id on each side, in the order of the ids, each taken from the first
   * corner with that id.
   */
  lemma {:induction false} CorrespondOnePerId<P>(df: seq<Corner<P>>, dz: seq<Corner<P>>, common: seq<nat>)
    requires forall k :: 0 <= k < |common| ==> common[k] in Ids(df) && common[k] in Ids(dz)
    ensures FirstPointsOf(Correspond(df, dz, common).0, df, common)
    ensures FirstPointsOf(Correspond(df, dz, common).1, dz, common)
  {
    if common != [] {
      var n := |common| - 1;
      var init := common[..n];
      forall k | 0 <= k < n ensures init[k] in Ids(df) && init[k] in Ids(dz) { assert init[k] == common[k]; }
      CorrespondOnePerId(df, dz, init);
      var id := common[n];
      assert id in Ids(df) && id in Ids(dz);
      CorrespondLast(df, dz, common);
      var prev := Correspond(df, dz, init);
      assert common == init + [id];
      FirstPointsOfSnoc(prev.0, df, init, id);
      FirstPointsOfSnoc(prev.1, dz, init, id);
    }
  }

  datatype Skip = MissingPartner | Unreadable | TooFewCorners | TooFewCommonIds

  /** What one `pair0_` file contributes: nothing, or two equally long point lists. */
  datatype PairOutcome<P> = Skipped(reason: Skip) | Accepted(face: seq<P>, zed: seq<P>)

  /** The body of the loop over `pair_files`, for one file. */
  function PairOutcomeOf<I, P>(pairFile: string, fileExists: string -> bool, imread: string -> Option<I>,
                               detect: I -> Option<seq<Corner<P>>>): PairOutcome<P>
  {
    var partner := PartnerName(pairFile);
    if !fileExists(partner) then Skipped(MissingPartner)
    else
      match (imread(pairFile), imread(partner))
      case (Some(imgF), Some(imgZ)) =>
        (match (detect(imgF), detect(imgZ))
         case (Some(df), Some(dz)) => OutcomeOfDetections(df, dz)
         case _ => Skipped(TooFewCorners))
      case _ => Skipped(Unreadable)
  }

  /** Both detections have at least 8 corners and share at least 8 ids. */
  predicate DetectionsAgree<P>(df: seq<Corner<P>>, dz: seq<Corner<P>>) {
    |df| >= MinCorners && |dz| >= MinCorners && |CommonIds(Ids(df), Ids(dz))| >= MinCommonIds
  }

  /** The outcome of a pair whose two detections are df and dz. */
  function OutcomeOfDetections<P>(df: seq<Corner<P>>, dz: seq<Corner<P>>): PairOutcome<P> {
    if |df| < MinCorners || |dz| < MinCorners then Skipped(TooFewCorners)
    else
      var common := CommonIds(Ids(df), Ids(dz));
      if |common| < MinCommonIds then Skipped(TooFewCommonIds)
      else
        var (f, z) := Correspond(df, dz, common);
        if |f| >= MinCommonIds then Accepted(f, z) else Skipped(TooFewCommonIds)
  }

  /**
   * Two detections are accepted exactly when both have at least 8 corners and
   * they share at least 8 ids; they then yield one correspondence per common
   * id, in ascending id order, from the first corner with that id in each.
   */
  lemma DetectionsAcceptance<P>(df: seq<Corner<P>>, dz: seq<Corner<P>>)
    ensures OutcomeOfDetections(df, dz).Accepted? <==> DetectionsAgree(df, dz)
    ensures var o, common := OutcomeOfDetections(df, dz), CommonIds(Ids(df), Ids(dz));
      o.Accepted? ==>
        && StrictlyIncreasing(common)
        && |o.face| == |o.zed| == |common| >= MinCommonIds
        && forall k :: 0 <= k < |common| ==>
             && common[k] in Ids(df) && common[k] in Ids(dz)
             && o.face[k] == FirstPoint(df, common[k])
             && o.zed[k] == FirstPoint(dz, common[k])
  {
    var common := CommonIds(Ids(df), Ids(dz));
    assert forall k :: 0 <= k < |common| ==> common[k] in common;
    CorrespondOnePerId(df, dz, common);
  }

  /** An accepted pair's two lists have equal length, at least 8. */
  lemma AcceptedPairShape<I, P>(pairFile: string, fileExists: string -> bool, imread: string -> Option<I>,
                                detect: I -> Option<seq<Corner<P>>>)
    ensures var o := PairOutcomeOf(pairFile, fileExists, imread, detect);
      o.Accepted? ==> |o.face| == |o.zed| >= MinCommonIds
  {
    var partner := PartnerName(pairFile);
    if fileExists(partner) && imread(pairFile).Some? && imread(partner).Some? {
      var imgF, imgZ := imread(pairFile).value, imread(partner).value;
      if detect(imgF).Some? && detect(imgZ).Some? {
        DetectionsAcceptance(detect(imgF).value, detect(imgZ).value);
      }
    }
  }

  // ---------------------------------------------------------------------------
  // Accumulation over all pairs
  // ---------------------------------------------------------------------------

  /** `facecam_points`, `zed_points` and `valid_pairs` after some of the files. */
  datatype Accumulated<P> = Accumulated(face: seq<P>, zed: seq<P>, validPairs: nat)

  function Extend<P>(acc: Accumulated<P>, o: PairOutcome<P>): Accumulated<P> {
    match o
    case Skipped(_) => acc
    case Accepted(f, z) => Accumulated(acc.face + f, acc.zed + z, acc.validPairs + 1)
  }

  /** The accumulated lists after processing `files` in order. */
  function Gather<I, P>(files: seq<string>, fileExists: string -> bool, imread: string -> Option<I>,
                        detect: I -> Option<seq<Corner<P>>>): Accumulated<P>
  {
    if files == [] then Accumulated([], [], 0)
    else Extend(Gather(files[..|files| - 1], fileExists, imread, detect),
                PairOutcomeOf(files[|files| - 1], fileExists, imread, detect))
  }

  /** Processing one more file extends the accumulated lists by that file's outcome. */
  lemma GatherStep<I, P>(files: seq<string>, i: nat, fileExists: string -> bool,
                         imread: string -> Option<I>, detect: I -> Option<seq<Corner<P>>>)
    requires i < |files|
    ensures Gather(files[..i + 1], fileExists, imread, detect)
         == Extend(Gather(files[..i], fileExists, imread, detect), PairOutcomeOf(files[i], fileExists, imread, detect))
  {
    assert files[..i + 1][..i] == files[..i];
  }

  /**
   * The global lists stay in lockstep, and every accepted pair has
   * contributed at least 8 correspondences to them.
   */
  lemma {:induction false} GatherLockstep<I, P>(files: seq<string>, fileExists: string -> bool,
                                               imread: string -> Option<I>, detect: I -> Option<seq<Corner<P>>>)
    ensures var g := Gather(files, fileExists, imread, detect);
      && |g.face| == |g.zed|
      && |g.face| >= MinCommonIds * g.validPairs
      && g.validPairs <= |files|
  {
    if files != [] {
      GatherLockstep(files[..|files| - 1], fileExists, imread, detect);
      AcceptedPairShape(files[|files| - 1], fileExists, imread, detect);
    }
  }

  /**
   * The lists only ever grow by extension: what was gathered from the first
   * i files is a prefix of what is gathered from all of them.
   */
  lemma {:induction false} GatherGrowsByExtension<I, P>(files: seq<string>, i: nat, fileExists: string -> bool,
                                                       imread: string -> Option<I>, detect: I -> Option<seq<Corner<P>>>)
    requires i <= |files|
    ensures var early, late := Gather(files[..i], fileExists, imread, detect), Gather(files, fileExists, imread, detect);
      && early.face <= late.face
      && early.zed <= late.zed
      && early.validPairs <= late.validPairs
    decreases |files|
  {
    if i < |files| {
      var init := files[..|files| - 1];
      assert init[..i] == files[..i];
      GatherGrowsByExtension(init, i, fileExists, imread, detect);
    } else {
      assert files[..i] == files;
    }
  }

  /** The value `find_correspondences` returns: None, or the two point lists. */
  function CorrespondencesOf<I, P>(files: seq<string>, fileExists: string -> bool, imread: string -> Option<I>,
                                   detect: I -> Option<seq<Corner<P>>>): Option<(seq<P>, seq<P>)>
  {
    if |files| == 0 then None
    else
      var g := Gather(files, fileExists, imread, detect);
      if g.validPairs < MinValidPairs then None else Some((g.face, g.zed))
  }

  /**
   * The inner loop over `common_ids`: for each id found in both detections,
   * the point of its first corner on each side.
   */
  method CollectCorrespondences<P>(cornersFacecam: seq<Corner<P>>, cornersZed: seq<Corner<P>>, commonIds: seq<nat>)
    returns (facecamPts: seq<P>, zedPts: seq<P>)
    ensures (facecamPts, zedPts) == Correspond(cornersFacecam, cornersZed, commonIds)
  {
    var idsFacecam, idsZed := Ids(cornersFacecam), Ids(cornersZed);
    facecamPts, zedPts := [], [];
    for k := 0 to |commonIds|
      invariant (facecamPts, zedPts) == Correspond(cornersFacecam, cornersZed, commonIds[..k])
    {
      var idxFacecam := FirstIndex(idsFacecam, commonIds[k]);
      var idxZed := FirstIndex(idsZed, commonIds[k]);
      if idxFacecam.Some? && idxZed.Some? {
        facecamPts := facecamPts + [cornersFacecam[idxFacecam.value].pt];
        zedPts := zedPts + [cornersZed[idxZed.value].pt];
      }
      assert commonIds[..k + 1][..k] == commonIds[..k];
    }
    assert commonIds[..|commonIds|] == commonIds;
  }

  /**
   * The body of the loop over `pair_files` for one file: each `continue`
   * becomes a skip, and the inner loop over the common ids collects the
   * correspondences.
   */
  method MatchPair<I, P>(pairFile: string, fileExists: string -> bool, imread: string -> Option<I>,
                         detect: I -> Option<seq<Corner<P>>>)
    returns (outcome: PairOutcome<P>)
    ensures outcome == PairOutcomeOf(pairFile, fileExists, imread, detect)
    ensures outcome.Accepted? ==> |outcome.face| == |outcome.zed| >= MinCommonIds
  {
    AcceptedPairShape(pairFile, fileExists, imread, detect);
    var pairFileZed := PartnerName(pairFile);
    if !fileExists(pairFileZed) {
      return Skipped(MissingPartner);
    }
    var imgFacecam := imread(pairFile);
    var imgZed := imread(pairFileZed);
    if imgFacecam.None? || imgZed.None? {
      return Skipped(Unreadable);
    }
    var detFacecam := detect(imgFacecam.value);
    var detZed := detect(imgZed.value);
    if detFacecam.None? || detZed.None? || |detFacecam.value| < MinCorners || |detZed.value| < MinCorners {
      return Skipped(TooFewCorners);
    }
    var cornersFacecam, cornersZed := detFacecam.value, detZed.value;
    var idsFacecam, idsZed := Ids(cornersFacecam), Ids(cornersZed);
    var commonIds := CommonIds(idsFacecam, idsZed);
    if |commonIds| < MinCommonIds {
      return Skipped(TooFewCommonIds);
    }
    var facecamPts, zedPts := CollectCorrespondences(cornersFacecam, cornersZed, commonIds);
    if |facecamPts| >= MinCommonIds {
      return Accepted(facecamPts, zedPts);
    }
    return Skipped(TooFewCommonIds);
  }

  /** The loop over `pair_files`: every accepted pair extends both lists and counts. */
  method GatherPairs<I, P>(pairFiles: seq<string>, fileExists: string -> bool, imread: string -> Option<I>,
                           detect: I -> Option<seq<Corner<P>>>)
    returns (facecamPoints: seq<P>, zedPoints: seq<P>, validPairs: nat)
    ensures Accumulated(facecamPoints, zedPoints, validPairs) == Gather(pairFiles, fileExists, imread, detect)
  {
    facecamPoints, zedPoints, validPairs := [], [], 0;
    for i := 0 to |pairFiles|
      invariant Accumulated(facecamPoints, zedPoints, validPairs) == Gather(pairFiles[..i], fileExists, imread, detect)
    {
      var outcome := MatchPair(pairFiles[i], fileExists, imread, detect);
      if outcome.Accepted? {
        facecamPoints := facecamPoints + outcome.face;
        zedPoints := zedPoints + outcome.zed;
        validPairs := validPairs + 1;
      }
      GatherStep(pairFiles, i, fileExists, imread, detect);
    }
    assert pairFiles[..|pairFiles|] == pairFiles;
  }

  /** `find_correspondences()` */
  method FindCorrespondences<I, P>(pairFiles: seq<string>, fileExists: string -> bool, imread: string -> Option<I>,
                                   detect: I -> Option<seq<Corner<P>>>)
    returns (r: Option<(seq<P>, seq<P>)>)
    ensures r == CorrespondencesOf(pairFiles, fileExists, imread, detect)
    ensures r.None? <==> |pairFiles| == 0 || Gather(pairFiles, fileExists, imread, detect).validPairs < MinValidPairs
    ensures r.Some? ==> |r.value.0| == |r.value.1| >= MinCommonIds * MinValidPairs
  {
    if |pairFiles| == 0 {
      return None;
    }
    var facecamPoints, zedPoints, validPairs := GatherPairs(pairFiles, fileExists, imread, detect);
    GatherLockstep(pairFiles, fileExists, imread, detect);
    if validPairs < MinValidPairs {
      return None;
    }
    return Some((facecamPoints, zedPoints));
  }

  /** What `cv2.findHomography` does: raise, or return a matrix or None. */
  datatype Fit<M> = FitRaised | FitReturned(matrix: Option<M>)

  /** The transform a fit yields: None when it raised or returned None. */
  function FittedMatrix<M>(fit: Fit<M>): Option<M> {
    match fit
    case FitRaised => None
    case FitReturned(m) => m
  }

  /**
   * `compute_perspective_transform()`: the transform file is written exactly
   * when correspondences were found and the fit returned a matrix.
   */
  method ComputePerspectiveTransform<I, P, M>(pairFiles: seq<string>, fileExists: string -> bool,
                                              imread: string -> Option<I>, detect: I -> Option<seq<Corner<P>>>,
                                              findHomography: (seq<P>, seq<P>, real) -> Fit<M>)
    returns (transform: Option<M>, saved: seq<Written<M>>)
    ensures var c := CorrespondencesOf(pairFiles, fileExists, imread, detect);
      transform == if c.None? then None
                   else FittedMatrix(findHomography(c.value.0, c.value.1, RansacReprojThreshold))
    ensures transform.Some? ==> Gather(pairFiles, fileExists, imread, detect).validPairs >= MinValidPairs
    ensures saved == if transform.Some? then [Written(TransformFile, transform.value)] else []
  {
    var correspondences := FindCorrespondences(pairFiles, fileExists, imread, detect);
    if correspondences.None? {
      return None, [];
    }
    var (facecamPoints, zedPoints) := correspondences.value;
    var fit := findHomography(facecamPoints, zedPoints, RansacReprojThreshold);
    match fit {
      case FitRaised =>
        return None, [];
      case FitReturned(transformMatrix) =>
        if transformMatrix.Some? {
          return transformMatrix, [Written(TransformFile, transformMatrix.value)];
        } else {
          return None, [];
        }
    }
  }
}

=== FILE: path_names.dfy ===
/**
 * The two string operations the stereo matcher uses to find the partner of a
 * `pair0_` image: `os.path.basename` (POSIX form) and `str.replace`.
 */
module PathNames {

  /** `os.path.basename`: everything after the last '/'. */
  function Basename(path: string): (b: string)
    ensures '/' !in b
    ensures |b| <= |path| && b == path[|path| - |b|..]
  {
    if path == [] then ""
    else if path[|path| - 1] == '/' then ""
    else Basename(path[..|path| - 1]) + [path[|path| - 1]]
  }

  /** What is cut off ends in a '/': the basename starts right after the last separator. */
  lemma {:induction false} BasenameFollowsSlash(path: string)
    ensures var b := Basename(path); |b| < |path| ==> path[|path| - |b| - 1] == '/'
    decreases |path|
  {
    if path != [] && path[|path| - 1] != '/' {
      var init := path[..|path| - 1];
      BasenameFollowsSlash(init);
      if |Basename(init)| < |init| {
        assert path[|path| - |Basename(path)| - 1] == init[|init| - |Basename(init)| - 1];
      }
    }
  }

  lemma {:induction false} BasenameAfterSlash(dir: string, name: string)
    requires '/' !in name
    ensures Basename(dir + "/" + name) == name
    decreases |name|
  {
    var p := dir + "/" + name;
    if name != [] {
      assert p[..|p| - 1] == dir + "/" + name[..|name| - 1];
      BasenameAfterSlash(dir, name[..|name| - 1]);
      assert name == name[..|name| - 1] + [name[|name| - 1]];
    }
  }

  /**
   * `s.replace(pat, rep)`: every occurrence of pat, found left to right
   * without overlap, replaced by rep.
   */
  function ReplaceAll(s: string, pat: string, rep: string): (r: string)
    requires pat != ""
    decreases |s|
  {
    if |s| < |pat| then s
    else if s[..|pat|] == pat then rep + ReplaceAll(s[|pat|..], pat, rep)
    else [s[0]] + ReplaceAll(s[1..], pat, rep)
  }

  /** A leading occurrence of the pattern is replaced and scanning resumes after it. */
  lemma ReplaceLeading(pat: string, s: string, rep: string)
    requires pat != ""
    ensures ReplaceAll(pat + s, pat, rep) == rep + ReplaceAll(s, pat, rep)
  {
    assert (pat + s)[..|pat|] == pat;
    assert (pat + s)[|pat|..] == s;
  }

  /** Text that does not start with the pattern's first character keeps that character and scans on. */
  lemma ReplaceCopiesFirst(u: string, pat: string, rep: string)
    requires pat != "" && u != [] && u[0] != pat[0]
    ensures ReplaceAll(u, pat, rep) == [u[0]] + ReplaceAll(u[1..], pat, rep)
  {
    if |u| >= |pat| {
      assert u[..|pat|][0] != pat[0];
    }
  }

  /** A prefix that lacks the pattern's first character is copied unchanged. */
  lemma {:induction false} ReplaceSkipsPrefix(t: string, s: string, pat: string, rep: string)
    requires pat != ""
    requires pat[0] !in t
    ensures ReplaceAll(t + s, pat, rep) == t + ReplaceAll(s, pat, rep)
    decreases |t|
  {
    if t != [] {
      var u := t + s;
      assert t[0] in t;
      ReplaceCopiesFirst(u, pat, rep);
      assert u[1..] == t[1..] + s;
      ReplaceSkipsPrefix(t[1..], s, pat, rep);
      assert t == [t[0]] + t[1..];
    } else {
      assert t + s == s;
    }
  }
}

=== FILE: resolution.dfy ===
/**
 * Frame sizes as `int(cap.get(CAP_PROP_FRAME_WIDTH))` and
 * `int(cap.get(CAP_PROP_FRAME_HEIGHT))` report them, and the "strictly
 * larger in both dimensions" test the ZED scripts negotiate with.
 *
 * A device is modelled by `report`: the size it reports after being asked
 * for a target size (`cap.set` of width and height, then `cap.get`).
 */
module Resolution {

  datatype Size = Size(width: int, height: int)

  predicate StrictlyLarger(a: Size, b: Size) {
    a.width > b.width && a.height > b.height
  }

  predicate AtLeast(a: Size, b: Size) {
    a.width >= b.width && a.height >= b.height
  }

  /** The sizes the device reports for each target in turn. */
  function Reports(targets: seq<Size>, report: Size -> Size): (r: seq<Size>)
    ensures |r| == |targets|
    ensures forall i :: 0 <= i < |targets| ==> r[i] == report(targets[i])
  {
    if targets == [] then [] else Reports(targets[..|targets| - 1], report) + [report(targets[|targets| - 1])]
  }
}

=== FILE: save_loop.dfy ===
/**
 * The capture loop shared by opencv-sync/capture_zed_try_direct.py and
 * opencv-sync/capture_zed_obs_direct.py: read a frame (a failed read ends
 * the loop), look for markers in its grayscale image, save it on S when at
 * least 4 markers show, stop on q/Q.
 */
module SaveLoop {
  import opened Common

  /** One pass of the loop; a stopped loop reads nothing more. */
  function BreakStep<F, G>(s: SaveState<G>, t: Tick<F>, toGray: F -> G, markerIds: G -> Option<seq<nat>>,
                           stem: string): SaveState<G>
  {
    if s.status != Running then s
    else
      match t
      case ReadFailed => s.(status := ReadFailure)
      case Read(frame, key) =>
        var gray := toGray(frame);
        HandleKey(s, key, gray, markerIds(gray), stem)
  }

  /** The loop's variables after the passes in `ticks`. */
  function BreakRun<F, G>(ticks: seq<Tick<F>>, toGray: F -> G, markerIds: G -> Option<seq<nat>>, stem: string)
    : SaveState<G>
  {
    if ticks == [] then SaveState(0, 0, [], Running)
    else BreakStep(BreakRun(ticks[..|ticks| - 1], toGray, markerIds, stem), ticks[|ticks| - 1], toGray, markerIds, stem)
  }

  /** Once the loop has stopped, later passes change nothing. */
  lemma {:induction false} StoppedRunIsFinal<F, G>(ticks: seq<Tick<F>>, k: nat, toGray: F -> G,
                                                  markerIds: G -> Option<seq<nat>>, stem: string)
    requires k <= |ticks|
    requires BreakRun(ticks[..k], toGray, markerIds, stem).status != Running
    ensures BreakRun(ticks, toGray, markerIds, stem) == BreakRun(ticks[..k], toGray, markerIds, stem)
    decreases |ticks|
  {
    if k < |ticks| {
      var init := ticks[..|ticks| - 1];
      assert init[..k] == ticks[..k];
      StoppedRunIsFinal(init, k, toGray, markerIds, stem);
    } else {
      assert ticks[..k] == ticks;
    }
  }

  /**
   * The first failed read ends the loop with what was saved before it; a
   * loop still running at the end has seen no failed read and no q/Q.
   */
  lemma {:induction false} FirstFailedReadEnds<F, G>(ticks: seq<Tick<F>>, k: nat, toGray: F -> G,
                                                    markerIds: G -> Option<seq<nat>>, stem: string)
    requires k < |ticks| && ticks[k].ReadFailed?
    requires BreakRun(ticks[..k], toGray, markerIds, stem).status == Running
    ensures BreakRun(ticks, toGray, markerIds, stem) == BreakRun(ticks[..k], toGray, markerIds, stem).(status := ReadFailure)
  {
    assert ticks[..k + 1][..k] == ticks[..k];
    StoppedRunIsFinal(ticks, k + 1, toGray, markerIds, stem);
  }

  lemma {:induction false} RunningMeansAllRead<F, G>(ticks: seq<Tick<F>>, toGray: F -> G,
                                                    markerIds: G -> Option<seq<nat>>, stem: string)
    requires BreakRun(ticks, toGray, markerIds, stem).status == Running
    ensures forall j :: 0 <= j < |ticks| ==> ticks[j].Read? && !(IsQuit(ticks[j].key) && !IsSave(ticks[j].key))
  {
    if ticks != [] {
      var init := ticks[..|ticks| - 1];
      var last := ticks[|ticks| - 1];
      var before := BreakRun(init, toGray, markerIds, stem);
      if before.status != Running {
        assert false;
      }
      RunningMeansAllRead(init, toGray, markerIds, stem);
      if last.Read? {
        var gray := toGray(last.frame);
        HandleKeySaves(before, last.key, gray, markerIds(gray), stem);
      }
      forall j | 0 <= j < |ticks|
        ensures ticks[j].Read? && !(IsQuit(ticks[j].key) && !IsSave(ticks[j].key))
      {
        if j < |init| {
          assert ticks[j] == init[j];
        }
      }
    }
  }

  /** `data` is the grayscale image of some frame read in `ticks`. */
  ghost predicate GrayOfRead<F, G>(data: G, ticks: seq<Tick<F>>, toGray: F -> G) {
    exists j :: 0 <= j < |ticks| && ticks[j].Read? && data == toGray(ticks[j].frame)
  }

  /**
   * Images are saved as `scans/<stem>000.png`, `..._001.png`, ...,
   * `saved_count` is their number, each is the grayscale image of a frame
   * read, and each showed at least 4 markers.
   */
  lemma {:induction false} SavedImagesNumbered<F, G>(ticks: seq<Tick<F>>, toGray: F -> G,
                                                    markerIds: G -> Option<seq<nat>>, stem: string)
    ensures var s := BreakRun(ticks, toGray, markerIds, stem);
      && s.failedReads == 0
      && |s.saved| == s.savedCount
      && forall i :: 0 <= i < |s.saved| ==>
           && s.saved[i].name == IndexedName(stem, i)
           && EnoughMarkers(markerIds(s.saved[i].data))
           && GrayOfRead(s.saved[i].data, ticks, toGray)
  {
    if ticks != [] {
      var init := ticks[..|ticks| - 1];
      SavedImagesNumbered(init, toGray, markerIds, stem);
      var last := ticks[|ticks| - 1];
      var before := BreakRun(init, toGray, markerIds, stem);
      forall i | 0 <= i < |before.saved|
        ensures GrayOfRead(before.saved[i].data, ticks, toGray)
      {
        assert GrayOfRead(before.saved[i].data, init, toGray);
        var j :| 0 <= j < |init| && init[j].Read? && before.saved[i].data == toGray(init[j].frame);
        assert ticks[j] == init[j];
      }
      if last.Read? {
        var gray := toGray(last.frame);
        HandleKeySaves(before, last.key, gray, markerIds(gray), stem);
        assert ticks[|ticks| - 1] == last;
        assert GrayOfRead(gray, ticks, toGray);
      }
    }
  }

  /** The `while True` loop of both scripts, over the passes in `ticks`. */
  method RunSaveLoop<F, G>(ticks: seq<Tick<F>>, toGray: F -> G, markerIds: G -> Option<seq<nat>>, stem: string)
    returns (state: SaveState<G>)
    ensures state == BreakRun(ticks, toGray, markerIds, stem)
  {
    var savedCount := 0;
    var saved: seq<Written<G>> := [];
    var status := Running;
    var i := 0;
    while i < |ticks|
      invariant 0 <= i <= |ticks|
      invariant BreakRun(ticks[..i], toGray, markerIds, stem) == SaveState(savedCount, 0, saved, Running)
    {
      var t := ticks[i];
      assert ticks[..i + 1][..i] == ticks[..i];
      i := i + 1;
      if t.ReadFailed? {
        status := ReadFailure;
        StoppedRunIsFinal(ticks, i, toGray, markerIds, stem);
        break;
      }
      var gray := toGray(t.frame);
      var ids := markerIds(gray);
      var key := t.key;
      if key == 's' as int || key == 'S' as int {
        if ids.Some? && |ids.value| >= MinMarkers {
          var filename := IndexedName(stem, savedCount);
          saved := saved + [Written(filename, gray)];
          savedCount := savedCount + 1;
        }
      } else if key == 'q' as int || key == 'Q' as int {
        status := Quit;
        StoppedRunIsFinal(ticks, i, toGray, markerIds, stem);
        break;
      }
    }
    if status == Running {
      assert ticks[..i] == ticks;
    }
    return SaveState(savedCount, 0, saved, status);
  }
}
